=== FILE: README.md ===
# clist: a Dafny model of the mailing-list engine

clist is a mail-transport helper. It gets one inbound message per run and
decides whether it is a command to the list server or a post to one mailing list.
A command is sent to the configured *command address*, with the command in the
subject: `help`, `lists`, `subscribe <id>` or `unsubscribe <id>`. The server
answers a command with a reply from the command address. It re-sends a post to
the list's subscribers, with the list header fields of RFC 2369 section 3 added.
Subscriptions are rows `(list id, user mailbox)` in one table.

This project models that engine as pure functions:

- `Strings`, `Seqs`, `Wrappers`: Go's `strings.TrimPrefix/Trim/Split/Join`, the
  filter loop, `Option`/`Result`.
- `ListConfig`: the configured lists, keyed by address. It covers the id rule of
  `loadConfig` and `lookupList`.
- `Subscriptions`: the subscription table as a sequence of rows, and the four
  database operations.
- `Inbound`: the inbound message with every address already parsed, and
  `checkAddress`.
- `Commands`: `subjectParser` and how the list id is taken from the subject.
- `Build`: the reply bodies, `badAddress`, and the two outbound shapes
  (`buildCommandEmail`, `buildListEmail`).
- `Router`: `CanPost`, the routing decision of `handleMessage`, every handler,
  and end-to-end properties of one message.
- `Scenarios`: three worked examples on a one-list configuration.
- `ParseMail`: the `parsemail` helpers. These are encoded-word decoding of a
  header sentence (RFC 2047 section 2), `decodeHeaderMime`, the `headerParser`
  wrappers around the address parsers, `createEmailFromHeader`, `Parse` and
  `ToBytes`. The word decoder, the address parsers and the message reader come in
  as fields of `ParseMail.Library`.

A handler is a function from (configuration, table, message, date) to a `Step`.
A `Step` holds the new table and the one message the run sends. The date is the
value that `time.Now()` would stamp.

In some places the code does something its comments or names do not suggest.
The model follows the code in each of them:

- `CanPost` compares the whitelist with the From header *as written*. The
  subscription check compares the *parsed* mailbox (main.go:394 against main.go:457).
  So `"Alice <alice@x>"` does not match a whitelist entry `alice@x`.
- `badAddress` drops list addresses and mailboxes named in To or Cc. It does not
  look at Bcc, and it does not drop the sender, despite its comment (main.go:287-314).
  A subscribed sender gets their own post back (`Scenarios.BroadcastScenario`).
- Only the first letter of a command keyword is case-insensitive. Matching is by
  substring, so "tools" asks for the lists and "HELP" is an unknown command
  (main.go:128-146).
- The id is the subject with "Subscribe " stripped and then "subscribe "
  stripped, so both can go (main.go:234-235). A keyword that is not at the start
  of the subject still classifies the command, but it stays in the id.
- A broadcast's List-Help link points at the list's own address (main.go:367), and
  `Router.HandleMessage` builds it that way. `Router.HandleMessageCorrected` points
  it at the command address instead (see Findings).
- `ParseMail.Parse` uses the email builder as written, which never fails on an
  address header. `ParseMail.ParseCorrected` uses the corrected builder (see Findings).

## Model

| member | source | states |
|---|---|---|
| Strings.TrimPrefix | main.go:234-235 | with the prefix present, prefix + result is the input; otherwise the input is returned unchanged |
| Strings.Trim | mail/main.go:108 | the trimmed string is empty exactly when every character is in the cutset (the blank test) |
| Strings.Split | mail/main.go:63 | at least one piece, no piece holds the separator, and joining the pieces with it gives back the input |
| Inbound.CheckAddress | main.go:81-92 | true exactly when some entry's parsed mailbox equals the address |
| Inbound.NamesInToOrCc | main.go:101 | an address is named in To followed by Cc exactly when it is named in To or in Cc |
| Commands.SubjectParser | main.go:125-149 | the four patterns tried in order with the last match winning: unsubscribe beats subscribe beats help beats lists; no match gives Unknown |
| Commands.UnsubscribeAlsoMatchesSubscribe | main.go:138-146 | every subject that matches the unsubscribe pattern also matches the subscribe pattern, so only the order decides |
| Commands.FirstLetterOnlyFolded | main.go:128-136 | "tools" gives the lists command, "HELP" gives Unknown, "Help" gives Help |
| Commands.HelpRequestClassified | main.go:133-136 | the subject "help" is the help command |
| Commands.SubscribeRequestClassified | main.go:138-146 | "subscribe " followed by an id without spaces is a subscribe command |
| Commands.UnsubscribeRequestClassified | main.go:143-146 | "unsubscribe " followed by any id, spaces included, is an unsubscribe command |
| Commands.MatchesInContext | main.go:128-146 | `Matches`, the model of `MatchString` on the literal alternatives of a pattern, is unanchored: a subject that matches still matches with any text before or after it |
| Commands.SubscribeListId | main.go:234-235 | the subject is the id after none, one or both of "Subscribe " and "subscribe ", in that order: each prefix present is removed ("Subscribe " first, then "subscribe " from what is left), and a subject starting with neither is the id itself |
| Commands.UnsubscribeListId | main.go:258-259 | the subject is the id after none, one or both of "Unsubscribe " and "unsubscribe ", in that order: each prefix present is removed ("Unsubscribe " first, then "unsubscribe " from what is left), and a subject starting with neither is the id itself |
| Commands.SubscribeListIdOfRequest | main.go:234-235 | the id taken from "subscribe <id>" is <id>, for every <id> |
| Commands.UnsubscribeListIdOfRequest | main.go:258-259 | the id taken from "unsubscribe <id>" is <id>, for every <id> |
| Commands.BothPrefixesStripped | main.go:234-235 | "Subscribe subscribe dev" names "dev" (and likewise for unsubscribe): both prefixes are stripped |
| Commands.PrefixOnlyAtStart | main.go:138-141 | "please subscribe dev" is a subscribe command whose id is the whole subject |
| ListConfig.LoadLists | main.go:559-568 | every stored list sits under its own address, and every list section's address is stored |
| ListConfig.LoadListsKeepsLast | main.go:566-567 | each stored list comes from the last list section with that address, with the id being the section name minus "list." |
| ListConfig.LoadedIdsUnique | main.go:566-567 | distinct section names give distinct ids among the stored lists |
| ListConfig.LoadConfig | main.go:557-568 | the loaded configuration is keyed by address, and with distinct section names it is well formed |
| ListConfig.LookupList | main.go:335-342 | a list is found exactly when some list has the id, and the list found has that id and is configured |
| Subscriptions.IsSubscribed | main.go:456-475 | the defining predicate of the subscription relation: some row pairs the user with the list, which is all the `SELECT 1 ... WHERE user=? AND list=?` query answers; `Subscribers`, `AddSubscription` and `RemoveSubscription` are specified against it |
| Subscriptions.Subscribers | main.go:435-453 | a user is listed exactly when subscribed to the list |
| Subscriptions.SubscribersAppend | main.go:437-450 | rows added later come later in the subscriber list |
| Subscriptions.SubscribersNoDuplicates | main.go:437-450 | a table without repeated rows lists each subscriber once |
| Subscriptions.AddSubscription | main.go:478-492 | afterwards the user is subscribed, the table gains exactly one copy of that row and every other row keeps its count, and the user is last among the list's subscribers |
| Subscriptions.RemoveSubscription | main.go:495-509 | afterwards the user is not subscribed, every copy of that row is gone, every other row keeps its count, and the rows keep their order |
| Subscriptions.RemoveUndoesAdd | main.go:478-509 | removing a subscription just added to a table without it gives back that table |
| Subscriptions.AddKeepsNoDuplicates | main.go:244-251 | adding a missing row keeps the rows pairwise different |
| Subscriptions.RemoveKeepsNoDuplicates | main.go:495-509 | removing rows keeps the rows pairwise different |
| Build.EntriesTextNamesEvery | main.go:212-219 | the id of every listed entry appears in the text of the lists reply |
| Build.CommandInfo | main.go:572-587 | the help text names the subscribe and unsubscribe commands and the command address to send them to |
| Build.ListingNamesAll | main.go:208-225 | the lists reply names every entry it is given and the command address |
| Build.Text | main.go:168-285 | every reply names what it is about: an unknown command's reply starts with the subject and names the command address; help and lists replies name the command address; the lists reply names every visible list's id; subscription replies name the list id, and the confirmation also the address to post to |
| Build.BuildCommandEmail | main.go:316-333 | a reply from the command address, with From "<command address>", to the requester's parsed mailbox alone, subject "Re: " + subject, with Date, Precedence "list" and a List-Help link to the command address |
| Build.BadAddress | main.go:287-314 | an address is refused exactly when it is a configured list address or is named in To or Cc |
| Build.Recipients | main.go:346-351 | the recipients are the list's subscribers that are not refused, in subscriber order |
| Build.ListEmail | main.go:344-373 | a broadcast is sent from the list address to the filtered subscribers, keeps From, To, Cc, subject and text, and sets every list header field |
| Build.BuildListEmailAsWritten | main.go:367 | as written, the List-Help link of a broadcast points at the list's own address |
| Build.ListEmailDiffersInHelpOnly | main.go:344-373 | two broadcasts whose List-Help links point at different addresses are equal in every other part |
| Build.BuildListEmail | main.go:344-373 | the corrected broadcast, whose List-Help link points at the command address |
| Router.IsPoster | main.go:392-398 | the whitelist loop is true exactly when the sender string is in the whitelist |
| Router.CanPost | main.go:384-402 | posting is allowed exactly when the subscribers-only gate passes and the whitelist is empty or holds the From as written |
| Router.CanPostMonotonicInPosters | main.go:384-402 | adding the sender to the whitelist never turns an allowed post into a refused one, and on an open list it allows the post |
| Router.MatchedLists | main.go:99-105 | a list matches exactly when its address is named in To or Cc |
| Router.Route | main.go:95-123 | the command address in To (Cc not consulted) makes a command; otherwise exactly one matched list is posted to or refused by CanPost; anything else is undeliverable |
| Router.Reply | main.go:168-205 | the reply-only handlers (no destination, not authorised, invalid id, help, unknown command) leave the table unchanged and send one message from the command address to the sender alone |
| Router.VisibleEntries | main.go:212-219 | every non-hidden list is listed with its id and description, and every listed entry is the id and description of a non-hidden list |
| Router.HiddenListsNotShown | main.go:212-219 | with unique ids, a list shows up in the lists reply exactly when it is not hidden |
| Router.HandleShowLists | main.go:208-230 | the table is unchanged and the reply lists exactly the non-hidden lists, each with its own id and description |
| Router.HandleSubscribe | main.go:233-254 | an unknown id gets the invalid-id reply and changes nothing; otherwise the sender ends up subscribed, the table changes only when they were not already, and every other row keeps its count |
| Router.HandleUnsubscribe | main.go:257-277 | an unknown id gets the invalid-id reply and changes nothing; otherwise the sender ends up unsubscribed, the table changes only when they were subscribed, and every other row keeps its count |
| Router.HandleCommand | main.go:152-165 | every command reply goes from the command address to the sender; only subscribe and unsubscribe change the table |
| Router.HandleMessage | main.go:95-123 | a command runs `HandleCommand`; a permitted post is the whole broadcast built for that list with List-Help naming the list's own address; the envelope sender is the command address or a list address; only a subscribe or unsubscribe command changes the table; a broadcast never reaches a list address or an address in To or Cc, and its List-Help link names the list's own address, as the code builds it; every other outcome replies to the sender alone |
| Router.HandleMessageCorrected | main.go:111 | the corrected handling differs from `HandleMessage` only for a broadcast, and there only in List-Help, which names the command address |
| Router.HandleMessagePreservesNoDuplicates | main.go:244-251 | a table without repeated rows keeps that property through any message |
| Router.SubscribeIdempotent | main.go:244-251 | a second identical subscribe command leaves the table as the first left it |
| Router.UnsubscribeIdempotent | main.go:268-274 | a second identical unsubscribe command leaves the table as the first left it |
| Router.SubscribeThenUnsubscribeRestores | main.go:233-277 | for an id without spaces, "subscribe <id>" then "unsubscribe <id>" from a sender who was not subscribed gives back the original table |
| Router.AmbiguousAddressingIsUndeliverable | main.go:108-121 | two different list addresses in To or Cc (and no command address in To) give the no-destination reply and no broadcast |
| Router.OnlyListAddressed | main.go:99-105 | a message naming one list address and no other configured address matches that list alone |
| Router.SubscribeLinkSubscribes | main.go:368 | for an id without spaces, the List-Subscribe subject "subscribe <id>" sent to the command address leaves the sender subscribed to that list |
| Router.UnsubscribeLinkUnsubscribes | main.go:369 | for any id, the List-Unsubscribe subject "unsubscribe <id>" sent to the command address leaves the sender unsubscribed |
| Router.ListHelpAsWrittenIsPosted | main.go:367 | a message sent only to the address in the as-written List-Help link is routed as a post to the list, never as a command |
| Router.ListHelpReachesCommand | main.go:331 | with the corrected broadcast, a post's List-Help link names the command address, and "help" sent there gets the help reply and changes nothing |
| Router.CommandInCcIsUndeliverable | main.go:96-121 | the command address in Cc alone, with no list addressed, gives the no-destination reply |
| Scenarios.SubscribeScenario | main.go:233-254 | "subscribe dev" from alice on an empty table adds exactly one row and confirms with the list address |
| Scenarios.SubscribersOnlyScenario | main.go:384-390 | a non-subscriber's post to a subscribers-only list gets the not-authorised reply and changes nothing |
| Scenarios.BroadcastScenario | main.go:287-314 | with a subscriber in Cc, the broadcast skips that subscriber and the list address but reaches the other subscriber and the subscribed sender |
| ParseMail.DecodeMimeSentence | mail/main.go:61-80 | a sentence of one word is that word decoded, or the word itself when the decoder rejects it |
| ParseMail.RejectedWordsRejoin | mail/main.go:65-79 | words the decoder all rejects are joined back with single spaces |
| ParseMail.DecodeRejectedIsIdentity | mail/main.go:61-80 | when the decoder rejects every space-separated word, the sentence comes back unchanged |
| ParseMail.FirstWordThenRest | mail/main.go:63-79 | a sentence decodes its first word on its own and every later word after it |
| ParseMail.DecodedWordJoinsDirectly | mail/main.go:66-76 | a decoded word is appended with no space, even after a plain word |
| ParseMail.RejectedWordKeepsSpace | mail/main.go:68-74 | a rejected word after the first is appended after exactly one space |
| ParseMail.DecodeValues | mail/main.go:87-90 | each value of a field is decoded in place: same count, same order |
| ParseMail.DecodeHeaderMime | mail/main.go:82-96 | never fails; the same field names, each with the same number of values, each value decoded |
| ParseMail.DecodeHeaderMimeRejectingIsIdentity | mail/main.go:82-96 | with a decoder that rejects everything, the header comes back unchanged |
| ParseMail.ParseAddressStep | mail/main.go:103-115 | a failed parser or a blank value gives nothing without calling the parser; otherwise the parse result is returned and an error is recorded exactly when the parser fails |
| ParseMail.ParseAddressListStep | mail/main.go:117-128 | the same for address lists: nothing when blank or already failed, otherwise the parser's list or its error |
| ParseMail.BlankSkipsParser | mail/main.go:108-127 | a value of spaces and newlines gives no address and no error, whatever the parser would say |
| ParseMail.CreateEmailFromHeaderAsWritten | mail/main.go:34-59 | as written, building the email always succeeds; an address header the parser rejects is read as empty |
| ParseMail.UnparsableToIsIgnored | mail/main.go:42-49 | an unparsable To header gives success with no recipients, though a parse failure occurred |
| ParseMail.CreateEmailFromHeader | mail/main.go:34-59 | with the parser state threaded, it fails exactly when some non-blank address header is rejected, with the first such error; otherwise every field is the parsed value |
| ParseMail.CorrectedAgreesWhenParsable | mail/main.go:34-59 | when every address header parses, the corrected and as-written versions give the same email |
| ParseMail.Parse | mail/main.go:13-32 | a reader error is returned as is; otherwise it succeeds, since the builder as written never fails, and the email is exactly the one `CreateEmailFromHeaderAsWritten` builds from the header, with the input bytes added; so a rejected To header is read as no recipients |
| ParseMail.ParseCorrected | mail/main.go:13-32 | with the corrected builder: success exactly when reading succeeds and no address header is rejected, and then the same email as `Parse` |
| ParseMail.ToBytes | mail/main.go:130-135 | the prefix followed by the message bytes, with length the sum of the two |
| ParseMail.ParsedMessageReplays | mail/main.go:130-135 | a parsed message, by either parser, replays as exactly the bytes it was parsed from |
| ParseMail.PrefixComesFirst | mail/main.go:130-135 | a prefix set before replay comes first and the message follows unchanged |

## Left out

- The SQLite database (main.go:407-432). The table is a sequence of rows. Database errors and their `os.Exit` paths are not modelled.
- SMTP sending (main.go:375-379), the log file (main.go:514-531), flag handling in `main` (main.go:51-79) and ini parsing. Sending is the `Step.mail` record.
- `time.Now()`. The reply's Date is a parameter.
- Go's map iteration order. The lists reply holds a set of entries. Its wording (`Build.Text`) is given for any visiting order of those entries.
- The `os.Exit(0)` after an invalid-id reply. The model's step ends there with the table unchanged.
- Failures of `mail.ParseAddress` in `checkAddress`, `badAddress`, `buildCommandEmail` and the subscription functions, with their nil dereference and exits. Addresses arrive already parsed as `Inbound.Addr`.
- The link between `ParseMail` and `Router`, that is, how a parsed email becomes an `Inbound.Message`. It belongs to the part of the program that is not part of this model. So `Inbound.Addr` (raw text, name, mailbox) is not formally tied to `ParseMail.Address` (name, address), though it holds the same parsed fields.
- The list's `bcc` field. It is carried, and the code never reads it either.
- Format strings. `handleHelp` and `handleUnknownCommand` put the help text, which holds the command address, into a format string. A `%` in the command address would be read as a verb. The model renders the text literally.
- Header field names are looked up exactly (`ParseMail.Get`). The canonical-case folding of Go's header type is not modelled.
- `ioutil.ReadAll` errors. Go also returns the partly filled email alongside an error; the model's `Result` drops it.
- Subscriptions.SubscribersAppend: the query at main.go:437 has no ORDER BY, so the code promises no row order. The model takes the table's row order to be insertion order, and this lemma rests on that.
- Subscriptions.AddSubscription: "the user is last among the list's subscribers" rests on the same assumption that rows come back in insertion order.
- Build.Recipients: "in subscriber order" rests on the same assumption about the order of the rows.
- Build.Recipients: states which subscribers receive the broadcast and that they keep subscriber order. It does not state how often a repeated table row is repeated among the recipients.

## Findings

| source | as written | input that shows it | evidently intended | confidence | as-written member | corrected member |
|---|---|---|---|---|---|---|
| mail/main.go:103-128 | `parseAddress`/`parseAddressList` have value receivers, so the error they store is lost, and the check at line 46 never fires | a header whose To value is non-blank and rejected by `mail.ParseAddressList` | the first non-blank unparsable address header makes `createEmailFromHeader` fail | high, not executed | ParseMail.UnparsableToIsIgnored | ParseMail.CreateEmailFromHeader |
| main.go:367 | the List-Help link of a broadcast is `<mailto:LIST?subject=help>` | a subscriber follows the link: a message to the list address with subject "help" is broadcast to the list (or refused) and never answered with help | List-Help points at the command address, as command replies do (main.go:331) | medium, not executed | Router.ListHelpAsWrittenIsPosted | Router.ListHelpReachesCommand |

=== FILE: build.dfy ===
/** The two outbound shapes: a command reply and a list broadcast, with the loop-prevention filter. */
module Build {
  import opened Strings
  import opened Seqs
  import opened Inbound
  import opened ListConfig
  import opened Subscriptions

  /** One entry of the "lists" reply. */
  datatype ListEntry = ListEntry(id: string, description: string)

  /** What an outbound message says; `Text` gives the wording. */
  datatype Body =
    | Verbatim(text: string)
    | NoDestination
    | NotAuthorised
    | UnknownCommand(subject: string, commandAddress: string)
    | HelpText(commandAddress: string)
    | Listing(entries: set<ListEntry>, commandAddress: string)
    | AlreadySubscribed(id: string)
    | NowSubscribed(id: string, address: string)
    | NotSubscribed(id: string)
    | NowUnsubscribed(id: string)
    | InvalidListId(id: string)

  /** The header fields the builders set. */
  datatype Field =
    | ReturnPath | Date | ReplyTo | Precedence
    | ListId | ListPost | ListHelp | ListSubscribe | ListUnsubscribe | ListArchive | ListOwner
  {
    /** The field name as written in the message. */
    function Name(): string {
      match this
      case ReturnPath => "Return-Path"
      case Date => "Date"
      case ReplyTo => "Reply-To"
      case Precedence => "Precedence"
      case ListId => "List-Id"
      case ListPost => "List-Post"
      case ListHelp => "List-Help"
      case ListSubscribe => "List-Subscribe"
      case ListUnsubscribe => "List-Unsubscribe"
      case ListArchive => "List-Archive"
      case ListOwner => "List-Owner"
    }
  }

  /** An outbound message: envelope sender and recipients, the visible fields, and the header map. */
  datatype Outbound = Outbound(
    sender: string,
    from: string,
    to: seq<string>,
    cc: seq<string>,
    recipients: seq<string>,
    subject: string,
    body: Body,
    headers: map<Field, seq<string>>)

  /** commandInfo: the help text, ending with how to reach the command address. */
  function CommandInfo(commandAddress: string): (r: string)
    ensures Contains(r, commandAddress)
    ensures Contains(r, "subscribe <list-id>") && Contains(r, "unsubscribe <list-id>")
  {
    var commands :=
      "    help\r\n"
      + "      Information about valid commands\r\n"
      + "\r\n"
      + "    list\r\n"
      + "      Retrieve a list of available mailing lists\r\n"
      + "\r\n";
    var subscribe := "    " + "subscribe <list-id>" + "\r\n      Subscribe to <list-id>\r\n\r\n";
    var unsubscribe := "    " + "unsubscribe <list-id>" + "\r\n      Unsubscribe from <list-id>\r\n\r\n";
    var tail := "To send a command, email " + commandAddress + " with the command as the subject.\r\n";
    ContainsMiddle("To send a command, email ", commandAddress, " with the command as the subject.\r\n");
    ContainsAppendRight(commands + subscribe + unsubscribe, tail, commandAddress);
    ContainsMiddle("    ", "subscribe <list-id>", "\r\n      Subscribe to <list-id>\r\n\r\n");
    ContainsAppendRight(commands, subscribe, "subscribe <list-id>");
    ContainsAppendLeft(commands + subscribe, unsubscribe, "subscribe <list-id>");
    ContainsAppendLeft(commands + subscribe + unsubscribe, tail, "subscribe <list-id>");
    ContainsMiddle("    ", "unsubscribe <list-id>", "\r\n      Unsubscribe from <list-id>\r\n\r\n");
    ContainsAppendRight(commands + subscribe, unsubscribe, "unsubscribe <list-id>");
    ContainsAppendLeft(commands + subscribe + unsubscribe, tail, "unsubscribe <list-id>");
    commands + subscribe + unsubscribe + tail
  }

  /** The entries of the "lists" reply in the order the list map happens to be visited. */
  function EntriesText(order: seq<ListEntry>): string
    decreases |order|
  {
    if |order| == 0 then ""
    else order[0].id + "\r\n============\r\n" + order[0].description + "\r\n\r\n" + EntriesText(order[1..])
  }

  /** Every entry of the visiting order has its id in the listing text. */
  lemma {:induction false} EntriesTextNamesEvery(order: seq<ListEntry>, e: ListEntry)
    requires e in order
    ensures Contains(EntriesText(order), e.id)
    decreases |order|
  {
    var tail := order[0].description + "\r\n\r\n" + EntriesText(order[1..]);
    var head := order[0].id + "\r\n============\r\n";
    assert EntriesText(order) == order[0].id + ("\r\n============\r\n" + tail);
    if order[0] == e {
      assert OccursAt(EntriesText(order), e.id, 0);
    } else {
      EntriesTextNamesEvery(order[1..], e);
      ContainsAppendRight(head + order[0].description + "\r\n\r\n", EntriesText(order[1..]), e.id);
      assert head + order[0].description + "\r\n\r\n" + EntriesText(order[1..]) == EntriesText(order);
    }
  }

  /** The text of the "lists" reply around the entries, in visiting order. */
  function ListingText(order: seq<ListEntry>, commandAddress: string): string {
    "Available mailing lists\r\n" + "-----------------------\r\n\r\n" + EntriesText(order)
    + "\r\nTo subscribe to a mailing list, email " + commandAddress + " with 'subscribe <list-id>' as the subject.\r\n"
  }

  /** The "lists" reply names every entry of the visiting order, and the command address. */
  lemma ListingNamesAll(order: seq<ListEntry>, commandAddress: string)
    ensures forall e | e in order :: Contains(ListingText(order, commandAddress), e.id)
    ensures Contains(ListingText(order, commandAddress), commandAddress)
  {
    var head := "Available mailing lists\r\n" + "-----------------------\r\n\r\n";
    var tail := "\r\nTo subscribe to a mailing list, email " + commandAddress + " with 'subscribe <list-id>' as the subject.\r\n";
    assert ListingText(order, commandAddress) == head + EntriesText(order) + tail;
    forall e | e in order ensures Contains(ListingText(order, commandAddress), e.id) {
      EntriesTextNamesEvery(order, e);
      ContainsAppendRight(head, EntriesText(order), e.id);
      ContainsAppendLeft(head + EntriesText(order), tail, e.id);
    }
    ContainsMiddle("\r\nTo subscribe to a mailing list, email ", commandAddress, " with 'subscribe <list-id>' as the subject.\r\n");
    ContainsAppendRight(head + EntriesText(order), tail, commandAddress);
  }

  /** A reply sentence with `x` written into it. */
  function Mention(before: string, x: string, after: string): (r: string)
    ensures Contains(r, x)
  {
    ContainsMiddle(before, x, after);
    before + x + after
  }

  /** What the wording of `b` names: the subject, list ids and addresses it is about. */
  predicate Mentions(b: Body, r: string) {
    match b
    case Verbatim(text) => r == text
    case UnknownCommand(subject, cmd) => OccursAt(r, subject, 0) && Contains(r, cmd)
    case HelpText(cmd) => Contains(r, cmd)
    case Listing(entries, cmd) => Contains(r, cmd) && forall e | e in entries :: Contains(r, e.id)
    case AlreadySubscribed(id) => Contains(r, id)
    case NowSubscribed(id, address) => Contains(r, id) && Contains(r, address)
    case NotSubscribed(id) => Contains(r, id)
    case NowUnsubscribed(id) => Contains(r, id)
    case InvalidListId(id) => Contains(r, id)
    case _ => true
  }

  /** The reply to an unknown command: the subject first, then the help text. */
  function UnknownCommandText(subject: string, commandAddress: string): (r: string)
    ensures Mentions(UnknownCommand(subject, commandAddress), r)
  {
    var rest := " is not a valid command.\r\n\r\nValid commands are:\r\n\r\n";
    ContainsAppendRight(subject + rest, CommandInfo(commandAddress), commandAddress);
    assert (subject + rest + CommandInfo(commandAddress))[..|subject|] == subject;
    subject + rest + CommandInfo(commandAddress)
  }

  /** The "lists" reply, naming every visible list. */
  function ListingReplyText(entries: set<ListEntry>, order: seq<ListEntry>, commandAddress: string): (r: string)
    requires forall e :: e in order <==> e in entries
    ensures Mentions(Listing(entries, commandAddress), r)
  {
    ListingNamesAll(order, commandAddress);
    ListingText(order, commandAddress)
  }

  /** The reply to a subscribe or unsubscribe command about list `id`. */
  function NoticeText(b: Body): (r: string)
    requires b.AlreadySubscribed? || b.NowSubscribed? || b.NotSubscribed? || b.NowUnsubscribed? || b.InvalidListId?
    ensures Mentions(b, r)
  {
    match b
    case AlreadySubscribed(id) => Mention("You are already subscribed to ", id, "\r\n")
    case NowSubscribed(id, address) =>
      var head := Mention("You are now subscribed to ", id, "\r\n");
      var tail := Mention("To send a message to this list, send an email to ", address, "\r\n");
      ContainsAppendLeft(head, tail, id);
      ContainsAppendRight(head, tail, address);
      head + tail
    case NotSubscribed(id) => Mention("You aren't subscribed to ", id, "\r\n")
    case NowUnsubscribed(id) => Mention("You are now unsubscribed from ", id, "\r\n")
    case InvalidListId(id) => Mention("Unable to operate against ", id, ", Invalid mailing list ID.\r\n")
  }

  /**
   * The wording of a body; `order` is the visiting order of the list map,
   * used by `Listing` only. Each reply names what it is about.
   */
  function Text(b: Body, order: seq<ListEntry>): (r: string)
    requires b.Listing? ==> NoDuplicates(order) && forall e :: e in order <==> e in b.entries
    ensures Mentions(b, r)
  {
    match b
    case Verbatim(text) => text
    case NoDestination => "No mailing lists addressed. Your message has not been delivered.\r\n"
    case NotAuthorised =>
      "You are not an approved poster for this mailing list. Your message has not been delivered.\r\n"
    case UnknownCommand(subject, cmd) => UnknownCommandText(subject, cmd)
    case HelpText(cmd) => CommandInfo(cmd)
    case Listing(entries, cmd) => ListingReplyText(entries, order, cmd)
    case _ => NoticeText(b)
  }

  /** A mailto URL in angle brackets asking for a message to `address` with the (already encoded) `subject`. */
  function MailtoLink(address: string, subject: string): string {
    "<mailto:" + address + "?subject=" + subject + ">"
  }

  /** buildCommandEmail: a reply from the command address to the requester alone. */
  function BuildCommandEmail(commandAddress: string, msg: Message, body: Body, date: string): (e: Outbound)
    ensures e.sender == commandAddress
    ensures e.recipients == [msg.from.mailbox]
    ensures e.from == "<" + commandAddress + ">"
    ensures e.to == [msg.from.name + "<" + msg.from.mailbox + ">"] && e.cc == []
    ensures e.subject == "Re: " + msg.subject
    ensures e.body == body
    ensures e.headers.Keys == {Date, Precedence, ListHelp}
    ensures e.headers[Date] == [date] && e.headers[Precedence] == ["list"]
    ensures e.headers[ListHelp] == [MailtoLink(commandAddress, "help")]
  {
    Outbound(
      commandAddress,
      "<" + commandAddress + ">",
      [msg.from.name + "<" + msg.from.mailbox + ">"],
      [],
      [msg.from.mailbox],
      "Re: " + msg.subject,
      body,
      map[Date := [date], Precedence := ["list"], ListHelp := [MailtoLink(commandAddress, "help")]])
  }

  /**
   * badAddress: a configured list address, or a mailbox already named in
   * To or Cc, must not receive the broadcast. Bcc and From are not consulted.
   */
  function BadAddress(cfg: Config, recipient: string, msg: Message): (r: bool)
    ensures r <==> recipient in ListAddresses(cfg) || Names(msg.to, recipient) || Names(msg.cc, recipient)
  {
    NamesInToOrCc(msg, recipient);
    (exists a | a in cfg.lists :: cfg.lists[a].address == recipient) || CheckAddress(msg.to + msg.cc, recipient)
  }

  /** The recipient loop of buildListEmail: the list's subscribers, in order, without bad addresses. */
  function Recipients(cfg: Config, store: Store, msg: Message, l: MailingList): (r: seq<string>)
    ensures forall u :: u in r <==>
              IsSubscribed(store, u, l.id) && u !in ListAddresses(cfg) && !Names(msg.to, u) && !Names(msg.cc, u)
    ensures IsSubsequence(r, Subscribers(store, l.id))
  {
    Filter(Subscribers(store, l.id), (u: string) => !BadAddress(cfg, u, msg))
  }

  /** Every header field a builder can set. */
  const AllFields: set<Field> := {
    ReturnPath, Date, ReplyTo, Precedence, ListId, ListPost, ListHelp, ListSubscribe, ListUnsubscribe, ListArchive, ListOwner
  }

  lemma AllFieldsListed()
    ensures forall f: Field :: f in AllFields
  {
    forall f: Field ensures f in AllFields {
      match f
      case ReturnPath =>
      case Date =>
      case ReplyTo =>
      case Precedence =>
      case ListId =>
      case ListPost =>
      case ListHelp =>
      case ListSubscribe =>
      case ListUnsubscribe =>
      case ListArchive =>
      case ListOwner =>
    }
  }

  /** The value a broadcast gives field `f`; `helpAddress` is where its List-Help link points. */
  function ListHeader(f: Field, cfg: Config, msg: Message, l: MailingList, helpAddress: string): seq<string> {
    match f
    case ReturnPath => ["bounce-" + l.address]
    case Date => HeaderValues(msg.headers, "Date")
    case ReplyTo => [msg.from.raw]
    case Precedence => ["list"]
    case ListId => ["<" + l.id + ">"]
    case ListPost => ["<mailto:" + l.address + ">"]
    case ListHelp => [MailtoLink(helpAddress, "help")]
    case ListSubscribe => [MailtoLink(cfg.commandAddress, "subscribe%20" + l.id)]
    case ListUnsubscribe => [MailtoLink(cfg.commandAddress, "unsubscribe%20" + l.id)]
    case ListArchive => ["<" + l.archive + ">"]
    case ListOwner => ["<" + l.owner + ">"]
  }

  /** The broadcast of `msg` to list `l`, whose List-Help link points at `helpAddress`. */
  function ListEmail(cfg: Config, store: Store, msg: Message, l: MailingList, helpAddress: string): (e: Outbound)
    ensures e.sender == l.address
    ensures e.recipients == Recipients(cfg, store, msg, l)
    ensures e.from == msg.from.raw && e.to == Raw(msg.to) && e.cc == Raw(msg.cc)
    ensures e.subject == msg.subject && e.body == Verbatim(msg.text)
    ensures forall f: Field :: f in e.headers && e.headers[f] == ListHeader(f, cfg, msg, l, helpAddress)
  {
    AllFieldsListed();
    Outbound(
      l.address, msg.from.raw, Raw(msg.to), Raw(msg.cc),
      Recipients(cfg, store, msg, l),
      msg.subject, Verbatim(msg.text),
      ListHeaders(cfg, msg, l, helpAddress))
  }

  /** Every field of a broadcast with its value. */
  function ListHeaders(cfg: Config, msg: Message, l: MailingList, helpAddress: string): map<Field, seq<string>> {
    map f | f in AllFields :: ListHeader(f, cfg, msg, l, helpAddress)
  }

  /** The header maps of two broadcasts differ in List-Help alone. */
  lemma ListHeadersDifferInHelpOnly(cfg: Config, msg: Message, l: MailingList, help: string, other: string)
    ensures ListHeaders(cfg, msg, l, other) == ListHeaders(cfg, msg, l, help)[ListHelp := [MailtoLink(other, "help")]]
  {
    var d := ListHeaders(cfg, msg, l, other);
    var h := ListHeaders(cfg, msg, l, help)[ListHelp := [MailtoLink(other, "help")]];
    AllFieldsListed();
    forall f: Field | f != ListHelp ensures d[f] == h[f] {
      assert ListHeader(f, cfg, msg, l, help) == ListHeader(f, cfg, msg, l, other);
    }
    assert d.Keys == h.Keys;
  }

  /** Two broadcasts that differ in where List-Help points differ in that field alone. */
  lemma ListEmailDiffersInHelpOnly(cfg: Config, store: Store, msg: Message, l: MailingList, help: string, other: string)
    ensures var e := ListEmail(cfg, store, msg, l, help);
            ListEmail(cfg, store, msg, l, other) == e.(headers := e.headers[ListHelp := [MailtoLink(other, "help")]])
  {
    ListHeadersDifferInHelpOnly(cfg, msg, l, help, other);
  }

  /** buildListEmail as written: its List-Help link points at the list's own posting address. */
  function BuildListEmailAsWritten(cfg: Config, store: Store, msg: Message, l: MailingList): (e: Outbound)
    ensures e.sender == l.address
    ensures ListHelp in e.headers && e.headers[ListHelp] == [MailtoLink(l.address, "help")]
  {
    var e := ListEmail(cfg, store, msg, l, l.address);
    assert ListHelp in e.headers && e.headers[ListHelp] == ListHeader(ListHelp, cfg, msg, l, l.address);
    e
  }

  /** buildListEmail with its List-Help link pointing at the command address, as command replies do. */
  function BuildListEmail(cfg: Config, store: Store, msg: Message, l: MailingList): (e: Outbound)
    ensures e.sender == l.address
    ensures ListHelp in e.headers && e.headers[ListHelp] == [MailtoLink(cfg.commandAddress, "help")]
  {
    var e := ListEmail(cfg, store, msg, l, cfg.commandAddress);
    assert ListHelp in e.headers && e.headers[ListHelp] == ListHeader(ListHelp, cfg, msg, l, cfg.commandAddress);
    e
  }
}

=== FILE: commands.dfy ===
/** The command interpreter: which command a subject line asks for, and which list id it names. */
module Commands {
  import opened Strings

  /** The strings subjectParser returns: "lists", "help", "subscribe", "unsubscribe" and "" (Unknown). */
  datatype Command = ShowLists | Help | Subscribe | Unsubscribe | Unknown

  /** The literal strings each regular expression can match: `[Ll]s|[Ll]ists?`. */
  const ListsPattern: seq<string> := ["ls", "Ls", "list", "List", "lists", "Lists"]
  /** `[Hh]elp` */
  const HelpPattern: seq<string> := ["help", "Help"]
  /** `[Ss]ubscribe ` (the trailing space is part of the pattern) */
  const SubscribePattern: seq<string> := ["subscribe ", "Subscribe "]
  /** `[Uu]nsubscribe ` */
  const UnsubscribePattern: seq<string> := ["unsubscribe ", "Unsubscribe "]

  /** The unanchored regular expression made of `alternatives` matches somewhere in `s`. */
  predicate Matches(s: string, alternatives: seq<string>) {
    exists i | 0 <= i < |alternatives| :: Contains(s, alternatives[i])
  }

  /** The patterns are not anchored: text before or after a match leaves it a match. */
  lemma MatchesInContext(before: string, s: string, after: string, alternatives: seq<string>)
    requires Matches(s, alternatives)
    ensures Matches(before + s + after, alternatives)
  {
    var i :| 0 <= i < |alternatives| && Contains(s, alternatives[i]);
    ContainsAppendRight(before, s, alternatives[i]);
    ContainsAppendLeft(before + s, after, alternatives[i]);
  }

  /** A pattern and the command it sets when it matches. */
  datatype Rule = Rule(pattern: seq<string>, command: Command)

  /** The patterns in the order subjectParser tries them. */
  const Rules: seq<Rule> := [
    Rule(ListsPattern, ShowLists),
    Rule(HelpPattern, Help),
    Rule(SubscribePattern, Subscribe),
    Rule(UnsubscribePattern, Unsubscribe)
  ]

  /** Try `rules` in order; each one that matches overwrites the answer so far. */
  function Overwrite(s: string, rules: seq<Rule>, current: Command): Command
    decreases |rules|
  {
    if |rules| == 0 then current
    else Overwrite(s, rules[1..], if Matches(s, rules[0].pattern) then rules[0].command else current)
  }

  /**
   * subjectParser. The sequential overwrite is equivalent to a priority
   * table: unsubscribe beats subscribe beats help beats lists.
   */
  function SubjectParser(s: string): (c: Command)
    ensures c == Unsubscribe <==> Matches(s, UnsubscribePattern)
    ensures c == Subscribe <==> Matches(s, SubscribePattern) && !Matches(s, UnsubscribePattern)
    ensures c == Help <==> Matches(s, HelpPattern) && !Matches(s, SubscribePattern) && !Matches(s, UnsubscribePattern)
    ensures c == ShowLists <==>
              Matches(s, ListsPattern) && !Matches(s, HelpPattern) && !Matches(s, SubscribePattern) && !Matches(s, UnsubscribePattern)
    ensures c == Unknown <==>
              !Matches(s, ListsPattern) && !Matches(s, HelpPattern) && !Matches(s, SubscribePattern) && !Matches(s, UnsubscribePattern)
  {
    var c1 := if Matches(s, ListsPattern) then ShowLists else Unknown;
    var c2 := if Matches(s, HelpPattern) then Help else c1;
    var c3 := if Matches(s, SubscribePattern) then Subscribe else c2;
    var c4 := if Matches(s, UnsubscribePattern) then Unsubscribe else c3;
    assert Overwrite(s, Rules, Unknown) == Overwrite(s, Rules[1..], c1);
    assert Overwrite(s, Rules[1..], c1) == Overwrite(s, Rules[2..], c2) by {
      assert Rules[1..][0] == Rules[1] && Rules[1..][1..] == Rules[2..];
    }
    assert Overwrite(s, Rules[2..], c2) == Overwrite(s, Rules[3..], c3) by {
      assert Rules[2..][0] == Rules[2] && Rules[2..][1..] == Rules[3..];
    }
    assert Overwrite(s, Rules[3..], c3) == c4 by {
      assert Rules[3..][0] == Rules[3] && Rules[3..][1..] == [];
    }
    Overwrite(s, Rules, Unknown)
  }

  /** Every subject that asks to unsubscribe also matches the subscribe pattern. */
  lemma UnsubscribeAlsoMatchesSubscribe(s: string)
    requires Matches(s, UnsubscribePattern)
    ensures Matches(s, SubscribePattern)
  {
    var i :| 0 <= i < |UnsubscribePattern| && Contains(s, UnsubscribePattern[i]);
    ContainsSuffix(s, UnsubscribePattern[i], 2);
    assert UnsubscribePattern[i][2..] == SubscribePattern[0];
  }

  /** A subject made of the subscribe keyword and a space-free id asks to subscribe. */
  lemma SubscribeRequestClassified(id: string)
    requires ' ' !in id
    ensures SubjectParser("subscribe " + id) == Subscribe
  {
    var s := "subscribe " + id;
    assert OccursAt(s, "subscribe ", 0);
    assert Contains(s, SubscribePattern[0]);
    NoLateKeyword(id, "subscribe ", UnsubscribePattern[0]);
    NoLateKeyword(id, "subscribe ", UnsubscribePattern[1]);
  }

  /** A subject made of the unsubscribe keyword and any id asks to unsubscribe. */
  lemma UnsubscribeRequestClassified(id: string)
    ensures SubjectParser("unsubscribe " + id) == Unsubscribe
  {
    var s := "unsubscribe " + id;
    assert OccursAt(s, "unsubscribe ", 0);
    assert Contains(s, UnsubscribePattern[0]);
  }

  /**
   * A keyword ending in a space and longer than `head` cannot occur in
   * `head + id` when `id` has no space: its last character would fall in `id`.
   */
  lemma NoLateKeyword(id: string, head: string, keyword: string)
    requires ' ' !in id
    requires |keyword| > |head| && keyword[|keyword| - 1] == ' '
    ensures !Contains(head + id, keyword)
  {
  }

  /** A pattern with a character that `s` lacks does not occur in `s`. */
  lemma MissingCharacter(s: string, p: string, k: int)
    requires 0 <= k < |p| && p[k] !in s
    ensures !Contains(s, p)
  {
  }

  /**
   * The list id of a subscribe command: strip "Subscribe ", then "subscribe ".
   * The subject is the id after none, one or both of the keywords.
   */
  function SubscribeListId(subject: string): (id: string)
    ensures subject in {id, "Subscribe " + id, "subscribe " + id, "Subscribe " + ("subscribe " + id)}
    ensures !HasPrefix(subject, "Subscribe ") && !HasPrefix(subject, "subscribe ") ==> id == subject
    ensures !HasPrefix(subject, "Subscribe ") && HasPrefix(subject, "subscribe ") ==> subject == "subscribe " + id
    ensures HasPrefix(subject, "Subscribe ") && HasPrefix(subject[10..], "subscribe ") ==> subject == "Subscribe subscribe " + id
    ensures HasPrefix(subject, "Subscribe ") && !HasPrefix(subject[10..], "subscribe ") ==> subject == "Subscribe " + id
  {
    var rest := TrimPrefix(subject, "Subscribe ");
    var id := TrimPrefix(rest, "subscribe ");
    assert HasPrefix(subject, "Subscribe ") ==> subject[10..] == rest;
    assert "Subscribe " + ("subscribe " + id) == "Subscribe subscribe " + id;
    id
  }

  /**
   * The list id of an unsubscribe command: strip "Unsubscribe ", then "unsubscribe ".
   * The subject is the id after none, one or both of the keywords.
   */
  function UnsubscribeListId(subject: string): (id: string)
    ensures subject in {id, "Unsubscribe " + id, "unsubscribe " + id, "Unsubscribe " + ("unsubscribe " + id)}
    ensures !HasPrefix(subject, "Unsubscribe ") && !HasPrefix(subject, "unsubscribe ") ==> id == subject
    ensures !HasPrefix(subject, "Unsubscribe ") && HasPrefix(subject, "unsubscribe ") ==> subject == "unsubscribe " + id
    ensures HasPrefix(subject, "Unsubscribe ") && HasPrefix(subject[12..], "unsubscribe ") ==> subject == "Unsubscribe unsubscribe " + id
    ensures HasPrefix(subject, "Unsubscribe ") && !HasPrefix(subject[12..], "unsubscribe ") ==> subject == "Unsubscribe " + id
  {
    var rest := TrimPrefix(subject, "Unsubscribe ");
    var id := TrimPrefix(rest, "unsubscribe ");
    assert HasPrefix(subject, "Unsubscribe ") ==> subject[12..] == rest;
    assert "Unsubscribe " + ("unsubscribe " + id) == "Unsubscribe unsubscribe " + id;
    id
  }

  /** "subscribe <id>" names <id>, whatever <id> is. */
  lemma SubscribeListIdOfRequest(id: string)
    ensures SubscribeListId("subscribe " + id) == id
  {
  }

  /** "unsubscribe <id>" names <id>, whatever <id> is. */
  lemma UnsubscribeListIdOfRequest(id: string)
    ensures UnsubscribeListId("unsubscribe " + id) == id
  {
  }

  /** Both prefixes are stripped, one after the other. */
  lemma BothPrefixesStripped()
    ensures SubscribeListId("Subscribe subscribe dev") == "dev"
    ensures UnsubscribeListId("Unsubscribe unsubscribe dev") == "dev"
  {
    TrimPrefixOfConcat("Subscribe ", "subscribe dev");
    TrimPrefixOfConcat("subscribe ", "dev");
    TrimPrefixOfConcat("Unsubscribe ", "unsubscribe dev");
    TrimPrefixOfConcat("unsubscribe ", "dev");
  }

  /** A subject that does not start with a keyword keeps its text as the id, so the id lookup fails on it. */
  lemma PrefixOnlyAtStart()
    ensures SubjectParser("please subscribe dev") == Subscribe
    ensures SubscribeListId("please subscribe dev") == "please subscribe dev"
  {
    var s := "please subscribe dev";
    assert s[7..17] == "subscribe ";
    assert OccursAt(s, "subscribe ", 7);
    assert Contains(s, SubscribePattern[0]);
    MissingCharacter(s, UnsubscribePattern[0], 1);
    MissingCharacter(s, UnsubscribePattern[1], 1);
    assert s[0] == 'p';
  }

  /** Substring matching with only the first letter folded: "tools" lists, "HELP" is unknown. */
  lemma FirstLetterOnlyFolded()
    ensures SubjectParser("tools") == ShowLists
    ensures SubjectParser("HELP") == Unknown
    ensures SubjectParser("Help") == Help
  {
    assert "tools"[3..5] == "ls";
    assert OccursAt("tools", "ls", 3);
    assert Contains("tools", ListsPattern[0]);
    MissingCharacter("tools", HelpPattern[0], 0);
    MissingCharacter("tools", HelpPattern[1], 0);
    MissingCharacter("tools", SubscribePattern[0], 1);
    MissingCharacter("tools", SubscribePattern[1], 1);
    MissingCharacter("tools", UnsubscribePattern[0], 0);
    MissingCharacter("tools", UnsubscribePattern[1], 0);

    MissingCharacter("HELP", ListsPattern[0], 1);
    MissingCharacter("HELP", ListsPattern[1], 1);
    MissingCharacter("HELP", ListsPattern[2], 1);
    MissingCharacter("HELP", ListsPattern[3], 1);
    MissingCharacter("HELP", ListsPattern[4], 1);
    MissingCharacter("HELP", ListsPattern[5], 1);
    MissingCharacter("HELP", HelpPattern[0], 0);
    MissingCharacter("HELP", HelpPattern[1], 1);
    MissingCharacter("HELP", SubscribePattern[0], 1);
    MissingCharacter("HELP", SubscribePattern[1], 1);
    MissingCharacter("HELP", UnsubscribePattern[0], 1);
    MissingCharacter("HELP", UnsubscribePattern[1], 1);

    assert OccursAt("Help", "Help", 0);
    assert Contains("Help", HelpPattern[1]);
    MissingCharacter("Help", SubscribePattern[0], 0);
    MissingCharacter("Help", SubscribePattern[1], 0);
    MissingCharacter("Help", UnsubscribePattern[0], 0);
    MissingCharacter("Help", UnsubscribePattern[1], 0);
  }

  /** The subject "help" asks for help. */
  lemma HelpRequestClassified()
    ensures SubjectParser("help") == Help
  {
    assert OccursAt("help", "help", 0);
    assert Contains("help", HelpPattern[0]);
    MissingCharacter("help", SubscribePattern[0], 0);
    MissingCharacter("help", SubscribePattern[1], 0);
    MissingCharacter("help", UnsubscribePattern[0], 0);
    MissingCharacter("help", UnsubscribePattern[1], 0);
  }
}

=== FILE: inbound.dfy ===
/** The inbound message as the routing engine sees it, with every address already parsed. */
module Inbound {

  /**
   * An address header entry: the text as written (`raw`) and what the
   * address parser makes of it (display `name` and bare `mailbox`): the
   * `name` and `address` of a `ParseMail.Address`, with the text kept.
   */
  datatype Addr = Addr(raw: string, name: string, mailbox: string)

  /** One inbound message: the single From entry, the To/Cc/Bcc entries, the header map and the body text. */
  datatype Message = Message(
    subject: string,
    from: Addr,
    to: seq<Addr>,
    cc: seq<Addr>,
    bcc: seq<Addr>,
    headers: map<string, seq<string>>,
    text: string)

  /** The entries as written, in order. */
  function Raw(addrs: seq<Addr>): (r: seq<string>)
    ensures |r| == |addrs|
    ensures forall i | 0 <= i < |addrs| :: r[i] == addrs[i].raw
  {
    seq(|addrs|, i requires 0 <= i < |addrs| => addrs[i].raw)
  }

  /** Some entry of `addrs` has the bare mailbox `mailbox`. */
  predicate Names(addrs: seq<Addr>, mailbox: string) {
    exists i | 0 <= i < |addrs| :: addrs[i].mailbox == mailbox
  }

  /** The values stored under `key`; a missing key reads as no values, as a nil slice does. */
  function HeaderValues(headers: map<string, seq<string>>, key: string): seq<string> {
    if key in headers then headers[key] else []
  }

  /** checkAddress: scan the entries in order and stop at the first whose parsed mailbox is `check`. */
  function CheckAddress(addrs: seq<Addr>, check: string): (r: bool)
    ensures r <==> Names(addrs, check)
    decreases |addrs|
  {
    if |addrs| == 0 then false
    else if addrs[0].mailbox == check then true
    else
      var rest := CheckAddress(addrs[1..], check);
      assert Names(addrs, check) <==> Names(addrs[1..], check) by {
        if Names(addrs[1..], check) {
          var k :| 0 <= k < |addrs[1..]| && addrs[1..][k].mailbox == check;
          assert addrs[k + 1].mailbox == check;
        }
        if Names(addrs, check) {
          var k :| 0 <= k < |addrs| && addrs[k].mailbox == check;
          assert addrs[1..][k - 1].mailbox == check;
        }
      }
      rest
  }

  /** An entry of To or Cc names `mailbox`. */
  lemma NamesInToOrCc(msg: Message, mailbox: string)
    ensures Names(msg.to + msg.cc, mailbox) <==> Names(msg.to, mailbox) || Names(msg.cc, mailbox)
  {
    var all := msg.to + msg.cc;
    if Names(msg.cc, mailbox) {
      var k :| 0 <= k < |msg.cc| && msg.cc[k].mailbox == mailbox;
      assert all[|msg.to| + k] == msg.cc[k];
    }
    if Names(msg.to, mailbox) {
      var k :| 0 <= k < |msg.to| && msg.to[k].mailbox == mailbox;
      assert all[k] == msg.to[k];
    }
    if Names(all, mailbox) {
      var k :| 0 <= k < |all| && all[k].mailbox == mailbox;
      if k < |msg.to| {
        assert msg.to[k] == all[k];
      } else {
        assert msg.cc[k - |msg.to|] == all[k];
      }
    }
  }
}

=== FILE: listconfig.dfy ===
/** The mailing lists of the configuration: what `loadConfig` builds and `lookupList` searches. */
module ListConfig {
  import opened Wrappers
  import opened Strings

  /** One configured mailing list. `posters` and `bcc` keep the order of the ini file. */
  datatype MailingList = MailingList(
    id: string,
    address: string,
    name: string,
    description: string,
    archive: string,
    owner: string,
    hidden: bool,
    subscribersOnly: bool,
    posters: seq<string>,
    bcc: seq<string>)

  /** The part of the configuration the routing engine reads: the command address and the lists keyed by address. */
  datatype Config = Config(commandAddress: string, lists: map<string, MailingList>)

  /** Every list is stored under its own address. */
  predicate KeyedByAddress(lists: map<string, MailingList>) {
    forall a | a in lists :: lists[a].address == a
  }

  /** No two stored lists share an id. */
  predicate UniqueIds(lists: map<string, MailingList>) {
    forall a, b | a in lists && b in lists && lists[a].id == lists[b].id :: a == b
  }

  predicate WellFormed(cfg: Config) {
    KeyedByAddress(cfg.lists) && UniqueIds(cfg.lists)
  }

  /** The addresses of all configured lists. */
  function ListAddresses(cfg: Config): set<string> {
    set a | a in cfg.lists :: cfg.lists[a].address
  }

  /** An ini section as the ini reader hands it over: its name, and the list fields it maps onto. */
  datatype Section = Section(name: string, fields: MailingList)

  const ListSectionPrefix: string := "list."

  /** A child section of `list`, i.e. one named `list.<id>`. */
  predicate IsListSection(sec: Section) {
    HasPrefix(sec.name, ListSectionPrefix)
  }

  /** The list a section describes: its id is the section name without `list.`. */
  function SectionList(sec: Section): MailingList {
    sec.fields.(id := TrimPrefix(sec.name, ListSectionPrefix))
  }

  /** No later list section of `sections` than `i` has the same address. */
  predicate LastWithAddress(sections: seq<Section>, i: int)
    requires 0 <= i < |sections|
  {
    forall j | i < j < |sections| :: !(IsListSection(sections[j]) && sections[j].fields.address == sections[i].fields.address)
  }

  /** The `Lists` map of loadConfig: sections are stored in order under their address. */
  function LoadLists(sections: seq<Section>): (m: map<string, MailingList>)
    ensures KeyedByAddress(m)
    ensures forall i | 0 <= i < |sections| && IsListSection(sections[i]) :: sections[i].fields.address in m
    decreases |sections|
  {
    if |sections| == 0 then map[]
    else
      var m := LoadLists(sections[..|sections| - 1]);
      var sec := sections[|sections| - 1];
      if IsListSection(sec) then m[sec.fields.address := SectionList(sec)] else m
  }

  /** Every stored list comes from the last list section carrying its address: a later duplicate overwrites. */
  lemma {:induction false} LoadListsKeepsLast(sections: seq<Section>, a: string)
    requires a in LoadLists(sections)
    ensures exists i | 0 <= i < |sections| ::
              IsListSection(sections[i]) && LastWithAddress(sections, i) && LoadLists(sections)[a] == SectionList(sections[i])
    decreases |sections|
  {
    var init := sections[..|sections| - 1];
    var sec := sections[|sections| - 1];
    if IsListSection(sec) && a == sec.fields.address {
      assert LastWithAddress(sections, |sections| - 1);
    } else {
      LoadListsKeepsLast(init, a);
      var i :| 0 <= i < |init| && IsListSection(init[i]) && LastWithAddress(init, i) && LoadLists(init)[a] == SectionList(init[i]);
      assert sections[i] == init[i];
      assert LastWithAddress(sections, i);
    }
  }

  /** Section names are distinct, as they are in an ini file. */
  predicate DistinctNames(sections: seq<Section>) {
    forall i, j | 0 <= i < j < |sections| :: sections[i].name != sections[j].name
  }

  /** loadConfig reduced to the command address and the lists. */
  function LoadConfig(commandAddress: string, sections: seq<Section>): (cfg: Config)
    ensures cfg.commandAddress == commandAddress
    ensures KeyedByAddress(cfg.lists)
    ensures DistinctNames(sections) ==> WellFormed(cfg)
  {
    var lists := LoadLists(sections);
    assert DistinctNames(sections) ==> UniqueIds(lists) by {
      if DistinctNames(sections) {
        LoadedIdsUnique(sections);
      }
    }
    Config(commandAddress, lists)
  }

  /** Two list sections with the same id have the same name. */
  lemma SameIdSameName(s: Section, t: Section)
    requires IsListSection(s) && IsListSection(t)
    requires SectionList(s).id == SectionList(t).id
    ensures s.name == t.name
  {
  }

  /** Ids of loaded lists are unique when section names are. */
  lemma {:induction false} LoadedIdsUnique(sections: seq<Section>)
    requires DistinctNames(sections)
    ensures UniqueIds(LoadLists(sections))
  {
    var m := LoadLists(sections);
    forall a, b | a in m && b in m && m[a].id == m[b].id
      ensures a == b
    {
      LoadListsKeepsLast(sections, a);
      LoadListsKeepsLast(sections, b);
      var i :| 0 <= i < |sections| && IsListSection(sections[i]) && LastWithAddress(sections, i) && m[a] == SectionList(sections[i]);
      var j :| 0 <= j < |sections| && IsListSection(sections[j]) && LastWithAddress(sections, j) && m[b] == SectionList(sections[j]);
      SameIdSameName(sections[i], sections[j]);
      assert i == j;
    }
  }

  /** lookupList: the list whose id is `id`, if any. */
  function LookupList(cfg: Config, id: string): (r: Option<MailingList>)
    requires UniqueIds(cfg.lists)
    ensures r.Some? <==> exists a | a in cfg.lists :: cfg.lists[a].id == id
    ensures r.Some? ==> r.value.id == id && exists a | a in cfg.lists :: cfg.lists[a] == r.value
  {
    if exists a | a in cfg.lists :: cfg.lists[a].id == id then
      var a :| a in cfg.lists && cfg.lists[a].id == id;
      Some(cfg.lists[a])
    else
      None
  }
}

=== FILE: parsemail.dfy ===
/**
 * The header-decoding helpers of the parsemail package: encoded-word
 * decoding of header text (section 2 of RFC 2047), the per-header mapping,
 * the address-parsing wrapper, and replaying the message bytes. The word
 * decoder, the address parsers and the message reader are library calls
 * and come in as the fields of `Library`.
 */
module ParseMail {
  import opened Wrappers
  import opened Strings

  newtype byte = b: int | 0 <= b < 256

  /** A parsed address: display name and bare mailbox. */
  datatype Address = Address(name: string, address: string)

  /** A message header: each field name with its values in order. */
  type Header = map<string, seq<string>>

  /** The library calls the helpers rely on; an error is a message string. */
  datatype Library = Library(
    decodeWord: string -> Option<string>,
    parseAddress: string -> Result<Address, string>,
    parseAddressList: string -> Result<seq<Address>, string>,
    readMessage: seq<byte> -> Result<Header, string>)

  /** The parsed message. */
  datatype Email = Email(
    header: Header,
    subject: string,
    sender: Option<Address>,
    from: seq<Address>,
    replyTo: seq<Address>,
    to: seq<Address>,
    cc: seq<Address>,
    bcc: seq<Address>,
    prefixBytes: seq<byte>,
    bytes: seq<byte>)

  /** Header.Get: the first value of `key`, or "" when there is none. */
  function Get(h: Header, key: string): string {
    if key in h && |h[key]| > 0 then h[key][0] else ""
  }

  // decodeMimeSentence

  /** One word of the loop: decoded if the decoder accepts it, otherwise kept, after a space unless it is the first. */
  function DecodeWord(decode: string -> Option<string>, word: string, first: bool): string {
    match decode(word)
    case Some(w) => w
    case None => if first then word else " " + word
  }

  /** The words from the first (`first` set) or from a later one on, each decoded and appended. */
  function DecodeWords(words: seq<string>, decode: string -> Option<string>, first: bool): string
    decreases |words|
  {
    if |words| == 0 then ""
    else DecodeWord(decode, words[0], first) + DecodeWords(words[1..], decode, false)
  }

  /**
   * decodeMimeSentence: split on single spaces, decode word by word,
   * concatenate. A sentence of one word is that word decoded, or the word
   * itself when the decoder rejects it.
   */
  function DecodeMimeSentence(s: string, decode: string -> Option<string>): (r: string)
    ensures ' ' !in s && decode(s).Some? ==> r == decode(s).value
    ensures ' ' !in s && decode(s).None? ==> r == s
  {
    assert ' ' !in s ==> DecodeWords(Split(s, ' '), decode, true) == DecodeWord(decode, s, true) by {
      if ' ' !in s {
        SplitWord(s, ' ');
        assert [s][1..] == [];
        assert DecodeWords([s], decode, true) == DecodeWord(decode, s, true) + "";
      }
    }
    DecodeWords(Split(s, ' '), decode, true)
  }

  /** Later words the decoder rejects come back with the single space they were split on. */
  lemma {:induction false} RejectedLaterWords(words: seq<string>, decode: string -> Option<string>)
    requires |words| >= 1
    requires forall i | 0 <= i < |words| :: decode(words[i]).None?
    ensures DecodeWords(words, decode, false) == " " + Join(words, " ")
    decreases |words|
  {
    if |words| == 1 {
      assert words[1..] == [];
    } else {
      RejectedLaterWords(words[1..], decode);
    }
  }

  /** Words the decoder all rejects are joined back exactly as they were. */
  lemma {:induction false} RejectedWordsRejoin(words: seq<string>, decode: string -> Option<string>)
    requires |words| >= 1
    requires forall i | 0 <= i < |words| :: decode(words[i]).None?
    ensures DecodeWords(words, decode, true) == Join(words, " ")
  {
    if |words| == 1 {
      assert words[1..] == [];
    } else {
      RejectedLaterWords(words[1..], decode);
    }
  }

  /** When the decoder rejects every space-separated word, the sentence comes back unchanged. */
  lemma DecodeRejectedIsIdentity(s: string, decode: string -> Option<string>)
    requires forall i | 0 <= i < |Split(s, ' ')| :: decode(Split(s, ' ')[i]).None?
    ensures DecodeMimeSentence(s, decode) == s
  {
    RejectedWordsRejoin(Split(s, ' '), decode);
  }

  /** A sentence with a first word and a rest decodes the first word on its own, then the rest as later words. */
  lemma {:induction false} FirstWordThenRest(a: string, b: string, decode: string -> Option<string>)
    requires ' ' !in a
    ensures DecodeMimeSentence(a + " " + b, decode) == DecodeWord(decode, a, true) + DecodeWords(Split(b, ' '), decode, false)
  {
    SplitAround(a, b, ' ');
    SplitWord(a, ' ');
    assert a + [' '] + b == a + " " + b;
    var words := Split(a + " " + b, ' ');
    assert words == [a] + Split(b, ' ');
    assert words[1..] == Split(b, ' ');
  }

  /** A decoded word is appended with no space before it, even after a plain word. */
  lemma DecodedWordJoinsDirectly(a: string, b: string, x: string, decode: string -> Option<string>)
    requires ' ' !in a && ' ' !in b
    requires decode(a).None? && decode(b) == Some(x)
    ensures DecodeMimeSentence(a + " " + b, decode) == a + x
  {
    FirstWordThenRest(a, b, decode);
    SplitWord(b, ' ');
    assert [b][1..] == [];
  }

  /** A rejected word after the first keeps exactly one space before it. */
  lemma RejectedWordKeepsSpace(a: string, b: string, x: string, decode: string -> Option<string>)
    requires ' ' !in a && ' ' !in b
    requires decode(a) == Some(x) && decode(b).None?
    ensures DecodeMimeSentence(a + " " + b, decode) == x + " " + b
  {
    FirstWordThenRest(a, b, decode);
    SplitWord(b, ' ');
    assert [b][1..] == [];
  }

  // decodeHeaderMime

  /** The inner loop of decodeHeaderMime: every value of one field, decoded, in order. */
  function DecodeValues(values: seq<string>, decode: string -> Option<string>): (r: seq<string>)
    ensures |r| == |values|
    ensures forall i | 0 <= i < |values| :: r[i] == DecodeMimeSentence(values[i], decode)
    decreases |values|
  {
    if |values| == 0 then []
    else [DecodeMimeSentence(values[0], decode)] + DecodeValues(values[1..], decode)
  }

  /** decodeHeaderMime: the same field names, each value decoded in place; it never fails. */
  function DecodeHeaderMime(h: Header, decode: string -> Option<string>): (r: Result<Header, string>)
    ensures r.Success?
    ensures r.value.Keys == h.Keys
    ensures forall k | k in h :: |r.value[k]| == |h[k]|
    ensures forall k, i | k in h && 0 <= i < |h[k]| :: r.value[k][i] == DecodeMimeSentence(h[k][i], decode)
  {
    Success(map k | k in h :: DecodeValues(h[k], decode))
  }

  /** Values the decoder leaves alone come back unchanged. */
  lemma {:induction false} DecodeValuesRejectingIsIdentity(values: seq<string>, decode: string -> Option<string>)
    requires forall w :: decode(w).None?
    ensures DecodeValues(values, decode) == values
  {
    forall i | 0 <= i < |values| ensures DecodeValues(values, decode)[i] == values[i] {
      DecodeRejectedIsIdentity(values[i], decode);
    }
  }

  /** A header the decoder leaves alone comes back unchanged. */
  lemma {:induction false} DecodeHeaderMimeRejectingIsIdentity(h: Header, decode: string -> Option<string>)
    requires forall w :: decode(w).None?
    ensures DecodeHeaderMime(h, decode) == Success(h)
  {
    var r := DecodeHeaderMime(h, decode).value;
    forall k | k in h ensures r[k] == h[k] {
      DecodeValuesRejectingIsIdentity(h[k], decode);
    }
    assert r == h;
  }

  // headerParser

  /** headerParser: the header it reads and the first parse error it has kept. */
  datatype HeaderParser = HeaderParser(header: Header, err: Option<string>)

  /** The characters the blank test trims. */
  const Blank: set<char> := {' ', '\n'}

  /** `s` is not blank and the single-address parser rejects it. */
  predicate AddressFails(s: string, lib: Library) {
    !AllIn(s, Blank) && lib.parseAddress(s).Failure?
  }

  /** `s` is not blank and the address-list parser rejects it. */
  predicate ListFails(s: string, lib: Library) {
    !AllIn(s, Blank) && lib.parseAddressList(s).Failure?
  }

  /** The address the parser makes of a non-blank `s` it accepts; nothing otherwise. */
  function AddressOrNothing(s: string, lib: Library): Option<Address> {
    if !AllIn(s, Blank) && lib.parseAddress(s).Success? then Some(lib.parseAddress(s).value) else None
  }

  /** The addresses the parser makes of a non-blank `s` it accepts; none otherwise. */
  function ListOrNothing(s: string, lib: Library): seq<Address> {
    if !AllIn(s, Blank) && lib.parseAddressList(s).Success? then lib.parseAddressList(s).value else []
  }

  /**
   * parseAddress: a parser that has already failed, or a blank `s`, gives
   * nothing and calls no parser; otherwise the result and error are the
   * parser's. The state returned is the receiver copy after the call.
   */
  function ParseAddressStep(hp: HeaderParser, s: string, lib: Library): (r: (Option<Address>, HeaderParser))
    ensures hp.err.Some? ==> r == (None, hp)
    ensures hp.err.None? ==> r.0 == AddressOrNothing(s, lib) && r.1.header == hp.header
    ensures hp.err.None? ==> (r.1.err.Some? <==> AddressFails(s, lib))
    ensures hp.err.None? && AddressFails(s, lib) ==> r.1.err == Some(lib.parseAddress(s).error)
  {
    if hp.err.Some? then (None, hp)
    else if Trim(s, Blank) != "" then
      match lib.parseAddress(s)
      case Success(a) => (Some(a), hp.(err := None))
      case Failure(e) => (None, hp.(err := Some(e)))
    else (None, hp)
  }

  /** parseAddressList, with the same blank and error handling as parseAddress. */
  function ParseAddressListStep(hp: HeaderParser, s: string, lib: Library): (r: (seq<Address>, HeaderParser))
    ensures hp.err.Some? ==> r == ([], hp)
    ensures hp.err.None? ==> r.0 == ListOrNothing(s, lib) && r.1.header == hp.header
    ensures hp.err.None? ==> (r.1.err.Some? <==> ListFails(s, lib))
    ensures hp.err.None? && ListFails(s, lib) ==> r.1.err == Some(lib.parseAddressList(s).error)
  {
    if hp.err.Some? then ([], hp)
    else if Trim(s, Blank) != "" then
      match lib.parseAddressList(s)
      case Success(l) => (l, hp.(err := None))
      case Failure(e) => ([], hp.(err := Some(e)))
    else ([], hp)
  }

  /** A blank value never reaches the parser: whatever the parser would say, the result is empty and no error is kept. */
  lemma BlankSkipsParser(hp: HeaderParser, s: string, lib: Library)
    requires hp.err.None? && AllIn(s, Blank)
    ensures ParseAddressStep(hp, s, lib) == (None, hp)
    ensures ParseAddressListStep(hp, s, lib) == ([], hp)
  {
  }

  /** Some address header is present, not blank, and rejected by the parser. */
  predicate AnyAddressFails(h: Header, lib: Library) {
    ListFails(Get(h, "From"), lib) || AddressFails(Get(h, "Sender"), lib)
    || ListFails(Get(h, "Reply-To"), lib) || ListFails(Get(h, "To"), lib)
    || ListFails(Get(h, "Cc"), lib) || ListFails(Get(h, "Bcc"), lib)
  }

  /** The email built from `h` once its address fields are known. */
  function EmailOf(h: Header, lib: Library, sender: Option<Address>, from: seq<Address>, replyTo: seq<Address>,
                   to: seq<Address>, cc: seq<Address>, bcc: seq<Address>): Result<Email, string>
  {
    match DecodeHeaderMime(h, lib.decodeWord)
    case Failure(e) => Failure(e)
    case Success(decoded) =>
      Success(Email(decoded, DecodeMimeSentence(Get(h, "Subject"), lib.decodeWord), sender, from, replyTo, to, cc, bcc, [], []))
  }

  /**
   * createEmailFromHeader as written: the parse methods have value
   * receivers, so each works on a copy and the error it records is dropped;
   * the error check after them sees the untouched parser and never fires.
   */
  function CreateEmailFromHeaderAsWritten(h: Header, lib: Library): (r: Result<Email, string>)
    ensures r.Success?
    ensures r.value.subject == DecodeMimeSentence(Get(h, "Subject"), lib.decodeWord)
    ensures r.value.header == DecodeHeaderMime(h, lib.decodeWord).value
    ensures r.value.to == ListOrNothing(Get(h, "To"), lib) && r.value.cc == ListOrNothing(Get(h, "Cc"), lib)
    ensures r.value.from == ListOrNothing(Get(h, "From"), lib) && r.value.sender == AddressOrNothing(Get(h, "Sender"), lib)
    ensures r.value.replyTo == ListOrNothing(Get(h, "Reply-To"), lib) && r.value.bcc == ListOrNothing(Get(h, "Bcc"), lib)
  {
    var hp := HeaderParser(h, None);
    var from := ParseAddressListStep(hp, Get(h, "From"), lib).0;
    var sender := ParseAddressStep(hp, Get(h, "Sender"), lib).0;
    var replyTo := ParseAddressListStep(hp, Get(h, "Reply-To"), lib).0;
    var to := ParseAddressListStep(hp, Get(h, "To"), lib).0;
    var cc := ParseAddressListStep(hp, Get(h, "Cc"), lib).0;
    var bcc := ParseAddressListStep(hp, Get(h, "Bcc"), lib).0;
    match hp.err
    case Some(e) => Failure(e)
    case None => EmailOf(h, lib, sender, from, replyTo, to, cc, bcc)
  }

  /** As written, an unparsable To header is accepted and read as no recipients at all. */
  lemma UnparsableToIsIgnored(h: Header, lib: Library)
    requires ListFails(Get(h, "To"), lib)
    ensures CreateEmailFromHeaderAsWritten(h, lib).Success?
    ensures CreateEmailFromHeaderAsWritten(h, lib).value.to == []
    ensures AnyAddressFails(h, lib)
  {
  }

  /**
   * createEmailFromHeader with the parser state threaded from call to call:
   * the first non-blank header the parser rejects is the error, and the
   * later ones are skipped.
   */
  function CreateEmailFromHeader(h: Header, lib: Library): (r: Result<Email, string>)
    ensures r.Failure? <==> AnyAddressFails(h, lib)
    ensures ListFails(Get(h, "From"), lib) ==> r == Failure(lib.parseAddressList(Get(h, "From")).error)
    ensures r.Success? ==>
              r.value.subject == DecodeMimeSentence(Get(h, "Subject"), lib.decodeWord)
              && r.value.header == DecodeHeaderMime(h, lib.decodeWord).value
              && r.value.to == ListOrNothing(Get(h, "To"), lib) && r.value.cc == ListOrNothing(Get(h, "Cc"), lib)
              && r.value.from == ListOrNothing(Get(h, "From"), lib) && r.value.sender == AddressOrNothing(Get(h, "Sender"), lib)
              && r.value.replyTo == ListOrNothing(Get(h, "Reply-To"), lib) && r.value.bcc == ListOrNothing(Get(h, "Bcc"), lib)
  {
    var hp0 := HeaderParser(h, None);
    var (from, hp1) := ParseAddressListStep(hp0, Get(h, "From"), lib);
    var (sender, hp2) := ParseAddressStep(hp1, Get(h, "Sender"), lib);
    var (replyTo, hp3) := ParseAddressListStep(hp2, Get(h, "Reply-To"), lib);
    var (to, hp4) := ParseAddressListStep(hp3, Get(h, "To"), lib);
    var (cc, hp5) := ParseAddressListStep(hp4, Get(h, "Cc"), lib);
    var (bcc, hp6) := ParseAddressListStep(hp5, Get(h, "Bcc"), lib);
    match hp6.err
    case Some(e) => Failure(e)
    case None => EmailOf(h, lib, sender, from, replyTo, to, cc, bcc)
  }

  /** When every address header parses, the corrected and the as-written versions agree. */
  lemma CorrectedAgreesWhenParsable(h: Header, lib: Library)
    requires !AnyAddressFails(h, lib)
    ensures CreateEmailFromHeader(h, lib) == CreateEmailFromHeaderAsWritten(h, lib)
  {
  }

  /**
   * Parse: read the header from the bytes, build the email from it, and
   * keep the bytes for replay. The builder is the one the code calls, so an
   * address header the parser rejects is read as empty and Parse succeeds.
   */
  function Parse(input: seq<byte>, lib: Library): (r: Result<Email, string>)
    ensures lib.readMessage(input).Failure? ==> r == Failure(lib.readMessage(input).error)
    ensures r.Success? <==> lib.readMessage(input).Success?
    ensures r.Success? ==> r.value.bytes == input && r.value.prefixBytes == []
    ensures r.Success? ==> r.value.to == ListOrNothing(Get(lib.readMessage(input).value, "To"), lib)
    ensures r.Success? ==> r.value == CreateEmailFromHeaderAsWritten(lib.readMessage(input).value, lib).value.(bytes := input)
  {
    match lib.readMessage(input)
    case Failure(e) => Failure(e)
    case Success(h) =>
      match CreateEmailFromHeaderAsWritten(h, lib)
      case Failure(e) => Failure(e)
      case Success(email) => Success(email.(bytes := input))
  }

  /** Parse with the corrected builder: a rejected address header makes it fail. */
  function ParseCorrected(input: seq<byte>, lib: Library): (r: Result<Email, string>)
    ensures lib.readMessage(input).Failure? ==> r == Failure(lib.readMessage(input).error)
    ensures r.Success? <==> lib.readMessage(input).Success? && !AnyAddressFails(lib.readMessage(input).value, lib)
    ensures r.Success? ==> r.value.bytes == input && r.value.prefixBytes == []
    ensures r.Success? ==> r == Parse(input, lib)
  {
    match lib.readMessage(input)
    case Failure(e) => Failure(e)
    case Success(h) =>
      match CreateEmailFromHeader(h, lib)
      case Failure(e) => Failure(e)
      case Success(email) =>
        CorrectedAgreesWhenParsable(h, lib);
        Success(email.(bytes := input))
  }

  /** Email.ToBytes: the prefix, then the message bytes. */
  function ToBytes(e: Email): (r: seq<byte>)
    ensures |r| == |e.prefixBytes| + |e.bytes|
    ensures r[..|e.prefixBytes|] == e.prefixBytes && r[|e.prefixBytes|..] == e.bytes
  {
    e.prefixBytes + e.bytes
  }

  /** A parsed message replays as exactly the bytes it was parsed from. */
  lemma ParsedMessageReplays(input: seq<byte>, lib: Library)
    ensures Parse(input, lib).Success? ==> ToBytes(Parse(input, lib).value) == input
    ensures ParseCorrected(input, lib).Success? ==> ToBytes(ParseCorrected(input, lib).value) == input
  {
  }

  /** A prefix set before replay comes first, and the message follows unchanged. */
  lemma PrefixComesFirst(e: Email, prefix: seq<byte>)
    ensures ToBytes(e.(prefixBytes := prefix)) == prefix + e.bytes
  {
  }
}

=== FILE: router.dfy ===
/**
 * The routing engine: who may post, where a message goes, and what each
 * handler does to the subscription table and sends back.
 */
module Router {
  import opened Wrappers
  import opened Seqs
  import opened Inbound
  import opened ListConfig
  import opened Subscriptions
  import opened Commands
  import opened Build

  /** List.CanPost: the subscription check uses the parsed mailbox, the posters check the From entry as written. */
  function CanPost(store: Store, l: MailingList, from: Addr): (r: bool)
    ensures r <==> (!l.subscribersOnly || IsSubscribed(store, from.mailbox, l.id))
                   && (|l.posters| == 0 || from.raw in l.posters)
  {
    if l.subscribersOnly && !IsSubscribed(store, from.mailbox, l.id) then false
    else if |l.posters| > 0 then IsPoster(l.posters, from.raw)
    else true
  }

  /** The loop over the posters whitelist. */
  function IsPoster(posters: seq<string>, from: string): (r: bool)
    ensures r <==> from in posters
    decreases |posters|
  {
    if |posters| == 0 then false
    else if from == posters[0] then true
    else
      assert posters == [posters[0]] + posters[1..];
      IsPoster(posters[1..], from)
  }

  /** Adding the sender to the whitelist never takes away the right to post, and grants it to a sender the subscription check lets through. */
  lemma CanPostMonotonicInPosters(store: Store, l: MailingList, from: Addr)
    ensures CanPost(store, l, from) ==> CanPost(store, l.(posters := l.posters + [from.raw]), from)
    ensures !l.subscribersOnly ==> CanPost(store, l.(posters := l.posters + [from.raw]), from)
  {
  }

  /** The addresses of the lists named in To or Cc: the matchedLists loop of handleMessage. */
  function MatchedLists(cfg: Config, msg: Message): (r: set<string>)
    ensures forall a :: a in r <==>
              a in cfg.lists && (Names(msg.to, cfg.lists[a].address) || Names(msg.cc, cfg.lists[a].address))
  {
    forall a | a in cfg.lists ensures CheckAddress(msg.to + msg.cc, cfg.lists[a].address) <==>
        Names(msg.to, cfg.lists[a].address) || Names(msg.cc, cfg.lists[a].address) {
      NamesInToOrCc(msg, cfg.lists[a].address);
    }
    set a | a in cfg.lists && CheckAddress(msg.to + msg.cc, cfg.lists[a].address)
  }

  /** What handleMessage decides to do with a message. */
  datatype Action =
    | RunCommand(command: Command)
    | Post(list: MailingList)
    | Refuse(list: MailingList)
    | Undeliverable

  /**
   * The decision of handleMessage: the command address in To makes a
   * command; otherwise exactly one addressed list gets the post, if the
   * sender may post to it; anything else is undeliverable.
   */
  function Route(cfg: Config, store: Store, msg: Message): (r: Action)
    ensures r.RunCommand? <==> Names(msg.to, cfg.commandAddress)
    ensures r.RunCommand? ==> r.command == SubjectParser(msg.subject)
    ensures r.Post? || r.Refuse? <==> !Names(msg.to, cfg.commandAddress) && |MatchedLists(cfg, msg)| == 1
    ensures r.Post? || r.Refuse? ==> exists a | a in cfg.lists :: MatchedLists(cfg, msg) == {a} && cfg.lists[a] == r.list
    ensures r.Post? ==> CanPost(store, r.list, msg.from)
    ensures r.Refuse? ==> !CanPost(store, r.list, msg.from)
  {
    if CheckAddress(msg.to, cfg.commandAddress) then RunCommand(SubjectParser(msg.subject))
    else
      var matched := MatchedLists(cfg, msg);
      if |matched| == 1 then
        var a := TheElement(matched);
        var l := cfg.lists[a];
        if CanPost(store, l, msg.from) then Post(l) else Refuse(l)
      else Undeliverable
  }

  /** The state after one message: the subscription table and the one message sent. */
  datatype Step = Step(store: Store, mail: Outbound)

  /** A reply from the command address to the sender of `msg`. */
  function Reply(cfg: Config, store: Store, msg: Message, body: Body, date: string): (s: Step)
    ensures s.store == store
    ensures s.mail.sender == cfg.commandAddress && s.mail.recipients == [msg.from.mailbox]
    ensures s.mail.body == body
  {
    Step(store, BuildCommandEmail(cfg.commandAddress, msg, body, date))
  }

  /** The visible lists, as the "lists" reply shows them. */
  function VisibleEntries(cfg: Config): (r: set<ListEntry>)
    ensures forall a | a in cfg.lists && !cfg.lists[a].hidden ::
              ListEntry(cfg.lists[a].id, cfg.lists[a].description) in r
    ensures forall e | e in r :: exists a | a in cfg.lists :: !cfg.lists[a].hidden && e == ListEntry(cfg.lists[a].id, cfg.lists[a].description)
  {
    set a | a in cfg.lists && !cfg.lists[a].hidden :: ListEntry(cfg.lists[a].id, cfg.lists[a].description)
  }

  /** With unique ids, a list shows up in the "lists" reply exactly when it is not hidden. */
  lemma HiddenListsNotShown(cfg: Config, a: string)
    requires UniqueIds(cfg.lists) && a in cfg.lists
    ensures (exists e | e in VisibleEntries(cfg) :: e.id == cfg.lists[a].id) <==> !cfg.lists[a].hidden
  {
    var l := cfg.lists[a];
    if !l.hidden {
      assert ListEntry(l.id, l.description) in VisibleEntries(cfg);
    }
    forall e | e in VisibleEntries(cfg) && e.id == l.id ensures !l.hidden {
      var b :| b in cfg.lists && !cfg.lists[b].hidden && e.id == cfg.lists[b].id;
      assert b == a;
    }
  }

  /** handleShowLists */
  function HandleShowLists(cfg: Config, store: Store, msg: Message, date: string): (s: Step)
    ensures s.store == store
    ensures s.mail.recipients == [msg.from.mailbox]
    ensures s.mail.body.Listing? && s.mail.body.commandAddress == cfg.commandAddress
    ensures forall a | a in cfg.lists && !cfg.lists[a].hidden ::
              ListEntry(cfg.lists[a].id, cfg.lists[a].description) in s.mail.body.entries
    ensures forall e | e in s.mail.body.entries :: exists a | a in cfg.lists :: !cfg.lists[a].hidden && e == ListEntry(cfg.lists[a].id, cfg.lists[a].description)
  {
    Reply(cfg, store, msg, Listing(VisibleEntries(cfg), cfg.commandAddress), date)
  }

  /** handleSubscribe: the id follows the keyword; an unknown id is refused and changes nothing. */
  function HandleSubscribe(cfg: Config, store: Store, msg: Message, date: string): (s: Step)
    requires UniqueIds(cfg.lists)
    ensures s.mail.sender == cfg.commandAddress && s.mail.recipients == [msg.from.mailbox]
    ensures (exists a | a in cfg.lists :: cfg.lists[a].id == SubscribeListId(msg.subject))
            ==> IsSubscribed(s.store, msg.from.mailbox, SubscribeListId(msg.subject))
    ensures !(exists a | a in cfg.lists :: cfg.lists[a].id == SubscribeListId(msg.subject))
            ==> s.store == store && s.mail.body == InvalidListId(SubscribeListId(msg.subject))
    ensures forall row | row != Row(SubscribeListId(msg.subject), msg.from.mailbox) :: row in s.store <==> row in store
    ensures forall row | row != Row(SubscribeListId(msg.subject), msg.from.mailbox) :: multiset(s.store)[row] == multiset(store)[row]
    ensures s.store == store <==>
              !(exists a | a in cfg.lists :: cfg.lists[a].id == SubscribeListId(msg.subject))
              || IsSubscribed(store, msg.from.mailbox, SubscribeListId(msg.subject))
  {
    var id := SubscribeListId(msg.subject);
    var user := msg.from.mailbox;
    match LookupList(cfg, id)
    case None => Reply(cfg, store, msg, InvalidListId(id), date)
    case Some(l) =>
      if IsSubscribed(store, user, id) then Reply(cfg, store, msg, AlreadySubscribed(id), date)
      else
        var r := AddSubscription(store, user, id);
        assert |r| == |store| + 1;
        Step(r, BuildCommandEmail(cfg.commandAddress, msg, NowSubscribed(id, l.address), date))
  }

  /** handleUnsubscribe: every row pairing the sender with the named list goes. */
  function HandleUnsubscribe(cfg: Config, store: Store, msg: Message, date: string): (s: Step)
    requires UniqueIds(cfg.lists)
    ensures s.mail.sender == cfg.commandAddress && s.mail.recipients == [msg.from.mailbox]
    ensures (exists a | a in cfg.lists :: cfg.lists[a].id == UnsubscribeListId(msg.subject))
            ==> !IsSubscribed(s.store, msg.from.mailbox, UnsubscribeListId(msg.subject))
    ensures !(exists a | a in cfg.lists :: cfg.lists[a].id == UnsubscribeListId(msg.subject))
            ==> s.store == store && s.mail.body == InvalidListId(UnsubscribeListId(msg.subject))
    ensures forall row | row != Row(UnsubscribeListId(msg.subject), msg.from.mailbox) :: row in s.store <==> row in store
    ensures forall row | row != Row(UnsubscribeListId(msg.subject), msg.from.mailbox) :: multiset(s.store)[row] == multiset(store)[row]
    ensures s.store == store <==>
              !(exists a | a in cfg.lists :: cfg.lists[a].id == UnsubscribeListId(msg.subject))
              || !IsSubscribed(store, msg.from.mailbox, UnsubscribeListId(msg.subject))
  {
    var id := UnsubscribeListId(msg.subject);
    var user := msg.from.mailbox;
    match LookupList(cfg, id)
    case None => Reply(cfg, store, msg, InvalidListId(id), date)
    case Some(_) =>
      if !IsSubscribed(store, user, id) then Reply(cfg, store, msg, NotSubscribed(id), date)
      else
        var r := RemoveSubscription(store, user, id);
        assert Row(id, user) in store && Row(id, user) !in r;
        Step(r, BuildCommandEmail(cfg.commandAddress, msg, NowUnsubscribed(id), date))
  }

  /** handleCommand: dispatch on what the subject asks for. */
  function HandleCommand(cfg: Config, store: Store, msg: Message, date: string): (s: Step)
    requires UniqueIds(cfg.lists)
    ensures s.mail.sender == cfg.commandAddress && s.mail.recipients == [msg.from.mailbox]
    ensures s.mail.subject == "Re: " + msg.subject
    ensures SubjectParser(msg.subject) == Subscribe ==> s == HandleSubscribe(cfg, store, msg, date)
    ensures SubjectParser(msg.subject) == Unsubscribe ==> s == HandleUnsubscribe(cfg, store, msg, date)
    ensures SubjectParser(msg.subject) !in {Subscribe, Unsubscribe} ==> s.store == store
    ensures SubjectParser(msg.subject) == Help ==> s.mail.body == HelpText(cfg.commandAddress)
    ensures SubjectParser(msg.subject) == ShowLists ==> s.mail.body == Listing(VisibleEntries(cfg), cfg.commandAddress)
    ensures SubjectParser(msg.subject) == Unknown ==> s.mail.body == UnknownCommand(msg.subject, cfg.commandAddress)
  {
    match SubjectParser(msg.subject)
    case ShowLists => HandleShowLists(cfg, store, msg, date)
    case Help => Reply(cfg, store, msg, HelpText(cfg.commandAddress), date)
    case Subscribe => HandleSubscribe(cfg, store, msg, date)
    case Unsubscribe => HandleUnsubscribe(cfg, store, msg, date)
    case Unknown => Reply(cfg, store, msg, UnknownCommand(msg.subject, cfg.commandAddress), date)
  }

  /**
   * handleMessage: run a command, broadcast a post, or tell the sender why
   * not. The broadcast is built as the code builds it, with List-Help
   * pointing at the list itself.
   */
  function HandleMessage(cfg: Config, store: Store, msg: Message, date: string): (s: Step)
    requires WellFormed(cfg)
    ensures s.mail.sender == cfg.commandAddress || s.mail.sender in ListAddresses(cfg)
    ensures s.store != store ==>
              Names(msg.to, cfg.commandAddress) && SubjectParser(msg.subject) in {Subscribe, Unsubscribe}
    ensures Route(cfg, store, msg).Post? ==>
              var l := Route(cfg, store, msg).list;
              s.mail.sender == l.address
              && s.mail.body == Verbatim(msg.text)
              && ListHelp in s.mail.headers && s.mail.headers[ListHelp] == [MailtoLink(l.address, "help")]
              && forall u :: u in s.mail.recipients <==>
                   IsSubscribed(store, u, l.id) && u !in ListAddresses(cfg) && !Names(msg.to, u) && !Names(msg.cc, u)
    ensures !Route(cfg, store, msg).Post? ==>
              s.mail.sender == cfg.commandAddress && s.mail.recipients == [msg.from.mailbox]
    ensures Route(cfg, store, msg).RunCommand? ==> s == HandleCommand(cfg, store, msg, date)
    ensures Route(cfg, store, msg).Post? ==>
              s == Step(store, ListEmail(cfg, store, msg, Route(cfg, store, msg).list, Route(cfg, store, msg).list.address))
    ensures Route(cfg, store, msg).Refuse? ==> s.mail.body == NotAuthorised
    ensures Route(cfg, store, msg).Undeliverable? ==> s.mail.body == NoDestination
  {
    match Route(cfg, store, msg)
    case RunCommand(_) => HandleCommand(cfg, store, msg, date)
    case Post(l) =>
      assert l.address in ListAddresses(cfg);
      Step(store, BuildListEmailAsWritten(cfg, store, msg, l))
    case Refuse(_) => Reply(cfg, store, msg, NotAuthorised, date)
    case Undeliverable => Reply(cfg, store, msg, NoDestination, date)
  }

  /**
   * handleMessage with the corrected broadcast: everything is as in
   * `HandleMessage` except that a broadcast's List-Help link points at the
   * command address.
   */
  function HandleMessageCorrected(cfg: Config, store: Store, msg: Message, date: string): (s: Step)
    requires WellFormed(cfg)
    ensures !Route(cfg, store, msg).Post? ==> s == HandleMessage(cfg, store, msg, date)
    ensures Route(cfg, store, msg).Post? ==>
              var m := HandleMessage(cfg, store, msg, date).mail;
              s.store == store && s.mail == m.(headers := m.headers[ListHelp := [MailtoLink(cfg.commandAddress, "help")]])
  {
    match Route(cfg, store, msg)
    case Post(l) =>
      ListEmailDiffersInHelpOnly(cfg, store, msg, l, l.address, cfg.commandAddress);
      Step(store, BuildListEmail(cfg, store, msg, l))
    case _ => HandleMessage(cfg, store, msg, date)
  }

  /** A table without repeated rows keeps that shape through any message. */
  lemma {:induction false} HandleMessagePreservesNoDuplicates(cfg: Config, store: Store, msg: Message, date: string)
    requires WellFormed(cfg) && NoDuplicates(store)
    ensures NoDuplicates(HandleMessage(cfg, store, msg, date).store)
  {
    if Route(cfg, store, msg).RunCommand? {
      var user := msg.from.mailbox;
      match SubjectParser(msg.subject)
      case Subscribe =>
        var id := SubscribeListId(msg.subject);
        if LookupList(cfg, id).Some? && !IsSubscribed(store, user, id) {
          AddKeepsNoDuplicates(store, user, id);
        }
      case Unsubscribe =>
        RemoveKeepsNoDuplicates(store, user, UnsubscribeListId(msg.subject));
      case _ =>
    }
  }

  /** Repeating a subscribe command changes nothing more. */
  lemma SubscribeIdempotent(cfg: Config, store: Store, msg: Message, date: string)
    requires UniqueIds(cfg.lists)
    ensures var once := HandleSubscribe(cfg, store, msg, date).store;
            HandleSubscribe(cfg, once, msg, date).store == once
  {
  }

  /** Repeating an unsubscribe command changes nothing more. */
  lemma UnsubscribeIdempotent(cfg: Config, store: Store, msg: Message, date: string)
    requires UniqueIds(cfg.lists)
    ensures var once := HandleUnsubscribe(cfg, store, msg, date).store;
            HandleUnsubscribe(cfg, once, msg, date).store == once
  {
  }

  /** A message addressed to two lists (and not to the command address) is delivered to neither. */
  lemma {:induction false} AmbiguousAddressingIsUndeliverable(cfg: Config, store: Store, msg: Message, date: string, a: string, b: string)
    requires WellFormed(cfg)
    requires a in cfg.lists && b in cfg.lists && a != b
    requires Names(msg.to, a) || Names(msg.cc, a)
    requires Names(msg.to, b) || Names(msg.cc, b)
    requires !Names(msg.to, cfg.commandAddress)
    ensures Route(cfg, store, msg) == Undeliverable
    ensures HandleMessage(cfg, store, msg, date) == Reply(cfg, store, msg, NoDestination, date)
  {
  }

  /** A message naming the list at `a` and no other configured list address is addressed to that list alone. */
  lemma {:induction false} OnlyListAddressed(cfg: Config, msg: Message, a: string)
    requires KeyedByAddress(cfg.lists) && a in cfg.lists
    requires Names(msg.to, a) || Names(msg.cc, a)
    requires forall k | 0 <= k < |msg.to| :: msg.to[k].mailbox == a || msg.to[k].mailbox !in cfg.lists
    requires forall k | 0 <= k < |msg.cc| :: msg.cc[k].mailbox == a || msg.cc[k].mailbox !in cfg.lists
    ensures MatchedLists(cfg, msg) == {a}
  {
  }

  /**
   * The subject of a List-Subscribe link, "subscribe <id>", sent to the
   * command address, subscribes the sender to the list when the id has no space.
   */
  lemma {:induction false} SubscribeLinkSubscribes(cfg: Config, store: Store, msg: Message, date: string, a: string)
    requires WellFormed(cfg) && a in cfg.lists && ' ' !in cfg.lists[a].id
    requires Names(msg.to, cfg.commandAddress) && msg.subject == "subscribe " + cfg.lists[a].id
    ensures var s := HandleMessage(cfg, store, msg, date);
            IsSubscribed(s.store, msg.from.mailbox, cfg.lists[a].id)
            && s.mail.recipients == [msg.from.mailbox]
            && s.mail.body in {NowSubscribed(cfg.lists[a].id, a), AlreadySubscribed(cfg.lists[a].id)}
  {
    var id := cfg.lists[a].id;
    SubscribeRequestClassified(id);
    SubscribeListIdOfRequest(id);
    var l := LookupList(cfg, id);
    assert l == Some(cfg.lists[a]);
  }

  /** The subject of a List-Unsubscribe link, sent to the command address, removes the sender from the list. */
  lemma {:induction false} UnsubscribeLinkUnsubscribes(cfg: Config, store: Store, msg: Message, date: string, a: string)
    requires WellFormed(cfg) && a in cfg.lists
    requires Names(msg.to, cfg.commandAddress) && msg.subject == "unsubscribe " + cfg.lists[a].id
    ensures var s := HandleMessage(cfg, store, msg, date);
            !IsSubscribed(s.store, msg.from.mailbox, cfg.lists[a].id)
            && s.mail.recipients == [msg.from.mailbox]
            && s.mail.body in {NowUnsubscribed(cfg.lists[a].id), NotSubscribed(cfg.lists[a].id)}
  {
    var id := cfg.lists[a].id;
    UnsubscribeRequestClassified(id);
    UnsubscribeListIdOfRequest(id);
    var l := LookupList(cfg, id);
    assert l == Some(cfg.lists[a]);
  }

  /** Subscribing and then unsubscribing by command gives back the table the sender was not in. */
  lemma {:induction false} SubscribeThenUnsubscribeRestores(cfg: Config, store: Store, join: Message, leave: Message, date: string, a: string)
    requires WellFormed(cfg) && a in cfg.lists && ' ' !in cfg.lists[a].id
    requires Names(join.to, cfg.commandAddress) && join.subject == "subscribe " + cfg.lists[a].id
    requires Names(leave.to, cfg.commandAddress) && leave.subject == "unsubscribe " + cfg.lists[a].id
    requires join.from.mailbox == leave.from.mailbox
    requires !IsSubscribed(store, join.from.mailbox, cfg.lists[a].id)
    ensures HandleMessage(cfg, HandleMessage(cfg, store, join, date).store, leave, date).store == store
  {
    var id := cfg.lists[a].id;
    var user := join.from.mailbox;
    SubscribeRequestClassified(id);
    SubscribeListIdOfRequest(id);
    UnsubscribeRequestClassified(id);
    UnsubscribeListIdOfRequest(id);
    assert LookupList(cfg, id) == Some(cfg.lists[a]);
    var middle := HandleMessage(cfg, store, join, date).store;
    assert middle == AddSubscription(store, user, id);
    RemoveUndoesAdd(store, user, id);
  }

  /**
   * buildListEmail as written points List-Help at the list itself, but a
   * message sent there alone is routed as a post to that list: the help
   * request never reaches the command interpreter.
   */
  lemma {:induction false} ListHelpAsWrittenIsPosted(cfg: Config, store: Store, msg: Message, a: string)
    requires WellFormed(cfg) && a in cfg.lists && a != cfg.commandAddress
    requires |msg.to| == 1 && msg.to[0].mailbox == a && msg.cc == []
    ensures BuildListEmailAsWritten(cfg, store, msg, cfg.lists[a]).headers[ListHelp] == [MailtoLink(a, "help")]
    ensures Route(cfg, store, msg) in {Post(cfg.lists[a]), Refuse(cfg.lists[a])}
  {
    assert Names(msg.to, a);
    OnlyListAddressed(cfg, msg, a);
    assert !Names(msg.to, cfg.commandAddress) by {
      forall k | 0 <= k < |msg.to| ensures msg.to[k].mailbox != cfg.commandAddress {
        assert k == 0;
      }
    }
  }

  /**
   * With the corrected broadcast, the List-Help link of a post names the
   * command address, and "help" sent there is answered with the help text.
   */
  lemma {:induction false} ListHelpReachesCommand(cfg: Config, store: Store, post: Message, help: Message, date: string)
    requires WellFormed(cfg) && Route(cfg, store, post).Post?
    requires Names(help.to, cfg.commandAddress) && help.subject == "help"
    ensures var m := HandleMessageCorrected(cfg, store, post, date).mail;
            ListHelp in m.headers && m.headers[ListHelp] == [MailtoLink(cfg.commandAddress, "help")]
    ensures HandleMessageCorrected(cfg, store, help, date) == Reply(cfg, store, help, HelpText(cfg.commandAddress), date)
  {
    HelpRequestClassified();
  }

  /** A command address only in Cc is not a command; addressed to no list, the message is undeliverable. */
  lemma {:induction false} CommandInCcIsUndeliverable(cfg: Config, store: Store, msg: Message, date: string)
    requires WellFormed(cfg) && cfg.commandAddress !in cfg.lists
    requires msg.to == [] && |msg.cc| == 1 && msg.cc[0].mailbox == cfg.commandAddress
    ensures HandleMessage(cfg, store, msg, date) == Reply(cfg, store, msg, NoDestination, date)
  {
  }
}

=== FILE: scenarios.dfy ===
/** Worked examples: one configuration with one list, and what three messages do to it. */
module Scenarios {
  import opened Inbound
  import opened ListConfig
  import opened Subscriptions
  import opened Build
  import opened Router

  const CommandAddress: string := "lists@example.org"
  const DevAddress: string := "dev@example.org"

  /** An open list: anyone may post, nobody is whitelisted. */
  const Dev: MailingList := MailingList(
    "dev", DevAddress, "Developers", "Development talk", "https://example.org/archive", "owner@example.org",
    false, false, [], [])

  function ConfigWith(l: MailingList): Config {
    Config(CommandAddress, map[l.address := l])
  }

  const Alice: Addr := Addr("Alice <alice@example.org>", "Alice", "alice@example.org")

  function To(mailbox: string): Addr {
    Addr(mailbox, "", mailbox)
  }

  function MessageFrom(from: Addr, subject: string, to: seq<Addr>, cc: seq<Addr>): Message {
    Message(subject, from, to, cc, [], map[], "hello")
  }

  /** "subscribe dev" to the command address adds exactly one row and confirms it. */
  lemma {:induction false} SubscribeScenario()
    ensures var s := HandleMessage(ConfigWith(Dev), [], MessageFrom(Alice, "subscribe dev", [To(CommandAddress)], []), "now");
            s.store == [Row("dev", "alice@example.org")]
            && s.mail.recipients == ["alice@example.org"]
            && s.mail.body == NowSubscribed("dev", DevAddress)
  {
    var cfg := ConfigWith(Dev);
    var msg := MessageFrom(Alice, "subscribe dev", [To(CommandAddress)], []);
    assert Names(msg.to, CommandAddress) by {
      assert msg.to[0].mailbox == CommandAddress;
    }
    SubscribeLinkSubscribes(cfg, [], msg, "now", DevAddress);
  }

  /** A non-subscriber writing to a subscribers-only list is told so, and nothing else happens. */
  lemma {:induction false} SubscribersOnlyScenario()
    ensures var cfg := ConfigWith(Dev.(subscribersOnly := true));
            var msg := MessageFrom(Alice, "hi", [To(DevAddress)], []);
            HandleMessage(cfg, [], msg, "now") == Reply(cfg, [], msg, NotAuthorised, "now")
  {
    var l := Dev.(subscribersOnly := true);
    var cfg := ConfigWith(l);
    var msg := MessageFrom(Alice, "hi", [To(DevAddress)], []);
    assert !Names(msg.to, CommandAddress) by {
      assert msg.to[0].mailbox != CommandAddress;
    }
    assert msg.to[0].mailbox == DevAddress;
    OnlyListAddressed(cfg, msg, DevAddress);
  }

  /**
   * A post to the list with a subscriber in Cc: the Cc'd subscriber and the
   * list address itself are skipped, the other subscriber and the sender
   * (who is subscribed) receive it.
   */
  lemma {:induction false} BroadcastScenario()
    ensures var store := [Row("dev", "bob@example.org"), Row("dev", "carol@example.org"),
                          Row("dev", "alice@example.org"), Row("dev", DevAddress)];
            var msg := MessageFrom(Alice, "hi", [To(DevAddress)], [To("carol@example.org")]);
            var s := HandleMessage(ConfigWith(Dev), store, msg, "now");
            s.mail.sender == DevAddress
            && "bob@example.org" in s.mail.recipients
            && "alice@example.org" in s.mail.recipients
            && "carol@example.org" !in s.mail.recipients
            && DevAddress !in s.mail.recipients
  {
    var store := [Row("dev", "bob@example.org"), Row("dev", "carol@example.org"),
                  Row("dev", "alice@example.org"), Row("dev", DevAddress)];
    var cfg := ConfigWith(Dev);
    var msg := MessageFrom(Alice, "hi", [To(DevAddress)], [To("carol@example.org")]);
    assert msg.to[0].mailbox == DevAddress;
    assert msg.cc[0].mailbox == "carol@example.org";
    assert !Names(msg.to, CommandAddress) by {
      assert msg.to[0].mailbox != CommandAddress;
    }
    OnlyListAddressed(cfg, msg, DevAddress);
    assert Route(cfg, store, msg) == Post(Dev);
    assert store[0] == Row("dev", "bob@example.org") && store[2] == Row("dev", "alice@example.org");
    assert !Names(msg.to, "bob@example.org") && !Names(msg.cc, "bob@example.org");
    assert !Names(msg.to, "alice@example.org") && !Names(msg.cc, "alice@example.org");
    assert ListAddresses(cfg) == {DevAddress};
  }
}

=== FILE: seqs.dfy ===
/** Order-preserving filtering and duplicate-freedom over sequences. */
module Seqs {

  /** `sub` can be obtained from `s` by deleting elements, keeping the rest in order. */
  predicate IsSubsequence<T(==)>(sub: seq<T>, s: seq<T>)
    decreases |s|
  {
    |sub| == 0 || (|s| > 0 && if sub[0] == s[0] then IsSubsequence(sub[1..], s[1..]) else IsSubsequence(sub, s[1..]))
  }

  /** No value occurs twice in `s`. */
  predicate NoDuplicates<T(==)>(s: seq<T>) {
    forall i, j | 0 <= i < j < |s| :: s[i] != s[j]
  }

  /** The elements of `s` that `keep` accepts, in their original order (a Go append loop with a guard). */
  function Filter<T(==, !new)>(s: seq<T>, keep: T -> bool): (r: seq<T>)
    ensures |r| <= |s|
    ensures forall x :: x in r <==> x in s && keep(x)
    ensures IsSubsequence(r, s)
    ensures forall x :: multiset(r)[x] == if keep(x) then multiset(s)[x] else 0
    decreases |s|
  {
    if |s| == 0 then []
    else
      var rest := Filter(s[1..], keep);
      assert s == [s[0]] + s[1..];
      if keep(s[0]) then
        assert ([s[0]] + rest)[1..] == rest;
        [s[0]] + rest
      else
        rest
  }

  /** Filtering a concatenation filters each part. */
  lemma {:induction false} FilterAppend<T(!new)>(a: seq<T>, b: seq<T>, keep: T -> bool)
    ensures Filter(a + b, keep) == Filter(a, keep) + Filter(b, keep)
    decreases |a|
  {
    if |a| == 0 {
      assert a + b == b;
    } else {
      assert (a + b)[0] == a[0] && (a + b)[1..] == a[1..] + b;
      FilterAppend(a[1..], b, keep);
    }
  }

  /** Filtering with a test every element passes changes nothing. */
  lemma {:induction false} FilterKeepsAll<T(!new)>(s: seq<T>, keep: T -> bool)
    requires forall i | 0 <= i < |s| :: keep(s[i])
    ensures Filter(s, keep) == s
    decreases |s|
  {
    if |s| > 0 {
      FilterKeepsAll(s[1..], keep);
      assert s == [s[0]] + s[1..];
    }
  }

  /** Dropping the first element keeps the rest duplicate-free. */
  lemma TailNoDuplicates<T>(s: seq<T>)
    requires |s| > 0 && NoDuplicates(s)
    ensures NoDuplicates(s[1..]) && s[0] !in s[1..]
  {
    forall i, j | 0 <= i < j < |s[1..]| ensures s[1..][i] != s[1..][j] {
      assert s[1..][i] == s[i + 1] && s[1..][j] == s[j + 1];
    }
    forall k | 0 <= k < |s[1..]| ensures s[1..][k] != s[0] {
      assert s[1..][k] == s[k + 1];
    }
  }

  /** Putting a new element in front of a duplicate-free sequence keeps it duplicate-free. */
  lemma ConsNoDuplicates<T>(x: T, rest: seq<T>)
    requires x !in rest && NoDuplicates(rest)
    ensures NoDuplicates([x] + rest)
  {
    var r := [x] + rest;
    forall i, j | 0 <= i < j < |r| ensures r[i] != r[j] {
      if i == 0 {
        assert r[j] == rest[j - 1];
        assert r[j] in rest;
      } else {
        assert r[i] == rest[i - 1] && r[j] == rest[j - 1];
      }
    }
  }

  /** Filtering never introduces duplicates. */
  lemma {:induction false} FilterNoDuplicates<T(!new)>(s: seq<T>, keep: T -> bool)
    requires NoDuplicates(s)
    ensures NoDuplicates(Filter(s, keep))
    decreases |s|
  {
    if |s| > 0 {
      TailNoDuplicates(s);
      FilterNoDuplicates(s[1..], keep);
      if keep(s[0]) {
        ConsNoDuplicates(s[0], Filter(s[1..], keep));
      }
    }
  }

  /** Two different members make a set hold more than one element. */
  lemma TwoMembers<T>(s: set<T>, x: T, y: T)
    requires x in s && y in s && x != y
    ensures |s| >= 2
  {
    var rest := s - {x};
    assert s == rest + {x};
    assert rest * {x} == {};
    assert y in rest;
    assert |rest| >= 1;
  }

  /** The one element of a singleton set. */
  function TheElement<T>(s: set<T>): (x: T)
    requires |s| == 1
    ensures s == {x}
  {
    assert forall y, z | y in s && z in s :: y == z by {
      forall y, z | y in s && z in s ensures y == z {
        if y != z {
          TwoMembers(s, y, z);
        }
      }
    }
    var x :| x in s;
    x
  }
}

=== FILE: strings.dfy ===
/** The parts of Go's `strings` package that the core relies on. */
module Strings {

  /** `p` is a prefix of `s` (strings.HasPrefix). */
  predicate HasPrefix(s: string, p: string) {
    |p| <= |s| && s[..|p|] == p
  }

  /** strings.TrimPrefix: `s` without a leading `p`, or `s` itself. */
  function TrimPrefix(s: string, p: string): (r: string)
    ensures HasPrefix(s, p) ==> p + r == s
    ensures !HasPrefix(s, p) ==> r == s
  {
    if HasPrefix(s, p) then s[|p|..] else s
  }

  lemma TrimPrefixOfConcat(p: string, rest: string)
    ensures TrimPrefix(p + rest, p) == rest
  {
  }

  /** `p` occurs in `s` starting at index `i`. */
  predicate OccursAt(s: string, p: string, i: int) {
    0 <= i && i + |p| <= |s| && s[i..i + |p|] == p
  }

  /** `p` occurs somewhere in `s`: what a regular expression made of the literal `p` matches. */
  predicate Contains(s: string, p: string) {
    exists i | 0 <= i <= |s| :: OccursAt(s, p, i)
  }

  /** An occurrence of `p` contains an occurrence of every suffix of `p`. */
  lemma {:induction false} ContainsSuffix(s: string, p: string, k: nat)
    requires Contains(s, p)
    requires k <= |p|
    ensures Contains(s, p[k..])
  {
    var i :| 0 <= i <= |s| && OccursAt(s, p, i);
    assert 0 <= i && i + |p| <= |s| && s[i..i + |p|] == p;
    assert s[i + k..i + |p|] == s[i..i + |p|][k..];
    assert OccursAt(s, p[k..], i + k);
  }

  /** A match inside `b` is a match inside `a + b`. */
  lemma ContainsAppendRight(a: string, b: string, p: string)
    requires Contains(b, p)
    ensures Contains(a + b, p)
  {
    var i :| 0 <= i <= |b| && OccursAt(b, p, i);
    assert 0 <= i && i + |p| <= |b| && b[i..i + |p|] == p;
    assert (a + b)[|a| + i..|a| + i + |p|] == b[i..i + |p|];
    assert OccursAt(a + b, p, |a| + i);
  }

  /** A match inside `a` is a match inside `a + b`. */
  lemma ContainsAppendLeft(a: string, b: string, p: string)
    requires Contains(a, p)
    ensures Contains(a + b, p)
  {
    var i :| 0 <= i <= |a| && OccursAt(a, p, i);
    assert 0 <= i && i + |p| <= |a| && a[i..i + |p|] == p;
    assert (a + b)[i..i + |p|] == a[i..i + |p|];
    assert OccursAt(a + b, p, i);
  }

  /** `x` occurs in any text it is written into. */
  lemma ContainsMiddle(a: string, x: string, b: string)
    ensures Contains(a + x + b, x)
  {
    assert (a + x + b)[|a|..|a| + |x|] == x;
    assert OccursAt(a + x + b, x, |a|);
  }

  /** Every character of `s` lies in `cutset`. */
  predicate AllIn(s: string, cutset: set<char>) {
    forall i | 0 <= i < |s| :: s[i] in cutset
  }

  /** strings.TrimLeft with a cutset. */
  function TrimLeft(s: string, cutset: set<char>): (r: string)
    ensures |r| <= |s| && r == s[|s| - |r|..]
    ensures |r| > 0 ==> r[0] !in cutset
    ensures AllIn(s[..|s| - |r|], cutset)
    decreases |s|
  {
    if |s| > 0 && s[0] in cutset then TrimLeft(s[1..], cutset) else s
  }

  /** strings.TrimRight with a cutset. */
  function TrimRight(s: string, cutset: set<char>): (r: string)
    ensures |r| <= |s| && r == s[..|r|]
    ensures |r| > 0 ==> r[|r| - 1] !in cutset
    ensures AllIn(s[|r|..], cutset)
    decreases |s|
  {
    if |s| > 0 && s[|s| - 1] in cutset then TrimRight(s[..|s| - 1], cutset) else s
  }

  /** strings.Trim: drop leading and trailing characters that lie in `cutset`. */
  function Trim(s: string, cutset: set<char>): (r: string)
    ensures r == "" <==> AllIn(s, cutset)
  {
    var l := TrimLeft(s, cutset);
    assert s == s[..|s| - |l|] + l;
    TrimRight(l, cutset)
  }

  /** strings.Join. */
  function Join(words: seq<string>, sep: string): string {
    if |words| == 0 then ""
    else if |words| == 1 then words[0]
    else words[0] + sep + Join(words[1..], sep)
  }

  /** strings.Split with the one-character separator `c`; an empty `s` gives one empty piece. */
  function Split(s: string, c: char): (r: seq<string>)
    ensures |r| >= 1
    ensures forall i | 0 <= i < |r| :: c !in r[i]
    ensures Join(r, [c]) == s
    decreases |s|
  {
    if |s| == 0 then [""]
    else
      var rest := Split(s[1..], c);
      if s[0] == c then
        assert s == [c] + s[1..];
        [""] + rest
      else
        assert s == [s[0]] + s[1..];
        [[s[0]] + rest[0]] + rest[1..]
  }

  /** Splitting around one separator splits each side on its own. */
  lemma {:induction false} SplitAround(a: string, b: string, c: char)
    requires c !in a
    ensures Split(a + [c] + b, c) == Split(a, c) + Split(b, c)
    decreases |a|
  {
    if |a| == 0 {
      assert a + [c] + b == [c] + b;
      assert ([c] + b)[1..] == b;
    } else {
      SplitAround(a[1..], b, c);
      assert (a + [c] + b)[1..] == a[1..] + [c] + b;
      assert (a + [c] + b)[0] == a[0];
    }
  }

  /** A string without the separator splits into itself. */
  lemma {:induction false} SplitWord(w: string, c: char)
    requires c !in w
    ensures Split(w, c) == [w]
    decreases |w|
  {
  }
}

=== FILE: subscriptions.dfy ===
/** The `subscriptions` table as a sequence of (list, user) rows, and the four operations on it. */
module Subscriptions {
  import opened Seqs

  /** One row of the table: `user` (a bare mailbox) is subscribed to the list with id `list`. */
  datatype Row = Row(list: string, user: string)

  /** The rows in insertion order. The table has no uniqueness constraint, so a row may occur twice. */
  type Store = seq<Row>

  /** isSubscribed: some row pairs `user` with `list`. */
  predicate IsSubscribed(store: Store, user: string, list: string): (r: bool)
    ensures r <==> exists i | 0 <= i < |store| :: store[i].user == user && store[i].list == list
  {
    Row(list, user) in store
  }

  /** fetchSubscribers: the user of every row of `list`, in row order. */
  function Subscribers(store: Store, list: string): (r: seq<string>)
    ensures forall u :: u in r <==> IsSubscribed(store, u, list)
    ensures |r| <= |store|
    decreases |store|
  {
    if |store| == 0 then []
    else
      var rest := Subscribers(store[1..], list);
      assert store == [store[0]] + store[1..];
      if store[0].list == list then [store[0].user] + rest else rest
  }

  /** Rows appended later come later in the subscriber list. */
  lemma {:induction false} SubscribersAppend(store: Store, more: Store, list: string)
    ensures Subscribers(store + more, list) == Subscribers(store, list) + Subscribers(more, list)
    decreases |store|
  {
    if |store| > 0 {
      assert (store + more)[1..] == store[1..] + more;
      SubscribersAppend(store[1..], more, list);
    } else {
      assert store + more == more;
    }
  }

  /** A store whose rows are pairwise different lists each subscriber once. */
  lemma {:induction false} SubscribersNoDuplicates(store: Store, list: string)
    requires NoDuplicates(store)
    ensures NoDuplicates(Subscribers(store, list))
    decreases |store|
  {
    if |store| > 0 {
      TailNoDuplicates(store);
      SubscribersNoDuplicates(store[1..], list);
      if store[0].list == list {
        assert store[0] == Row(list, store[0].user);
        assert !IsSubscribed(store[1..], store[0].user, list);
        ConsNoDuplicates(store[0].user, Subscribers(store[1..], list));
      }
    }
  }

  /** addSubscription: insert one more row. */
  function AddSubscription(store: Store, user: string, list: string): (r: Store)
    ensures IsSubscribed(r, user, list)
    ensures forall row :: row in r <==> row in store || row == Row(list, user)
    ensures Subscribers(r, list) == Subscribers(store, list) + [user]
    ensures multiset(r) == multiset(store) + multiset{Row(list, user)}
  {
    var r := store + [Row(list, user)];
    SubscribersAppend(store, [Row(list, user)], list);
    assert Subscribers([Row(list, user)], list) == [user] by {
      assert [Row(list, user)][1..] == [];
    }
    r
  }

  /** removeSubscription: delete every row pairing `user` with `list`. */
  function RemoveSubscription(store: Store, user: string, list: string): (r: Store)
    ensures !IsSubscribed(r, user, list)
    ensures forall row :: row in r <==> row in store && row != Row(list, user)
    ensures IsSubsequence(r, store)
    ensures forall x :: multiset(r)[x] == if x == Row(list, user) then 0 else multiset(store)[x]
  {
    Filter(store, (row: Row) => row != Row(list, user))
  }

  /** Removing a subscription just added, to a table that did not have it, gives back the table. */
  lemma {:induction false} RemoveUndoesAdd(store: Store, user: string, list: string)
    requires !IsSubscribed(store, user, list)
    ensures RemoveSubscription(AddSubscription(store, user, list), user, list) == store
  {
    var keep := (row: Row) => row != Row(list, user);
    FilterAppend(store, [Row(list, user)], keep);
    FilterKeepsAll(store, keep);
    assert Filter([Row(list, user)], keep) == [] by {
      assert [Row(list, user)][1..] == [];
    }
  }

  /** Adding a pair that is absent keeps the rows pairwise different. */
  lemma AddKeepsNoDuplicates(store: Store, user: string, list: string)
    requires NoDuplicates(store)
    requires !IsSubscribed(store, user, list)
    ensures NoDuplicates(AddSubscription(store, user, list))
  {
  }

  /** Removing rows keeps the rows pairwise different. */
  lemma RemoveKeepsNoDuplicates(store: Store, user: string, list: string)
    requires NoDuplicates(store)
    ensures NoDuplicates(RemoveSubscription(store, user, list))
  {
    FilterNoDuplicates(store, (row: Row) => row != Row(list, user));
  }
}

=== FILE: wrappers.dfy ===
/** Option and Result values used in place of Go's nil pointers and error returns. */
module Wrappers {

  datatype Option<+T> = None | Some(value: T)

  /** A value or an error, as a Go function returning `(T, error)` does. */
  datatype Result<+T, +E> = Success(value: T) | Failure(error: E)
}
